=== FILE: README.md ===
# Orbit viewer core in Dafny

This project models the logic of a three.js solar-system and satellite viewer:

- the world clock (`WorldTime`);
- the satellite constellation (`Satellite`): parsing the tab-separated dataset, colouring by the `Users` column, and the per-frame position update;
- the Newton solver for Kepler's equation that places satellites (`orbitEquation.js`, with the identical copy in `Satellite.js`);
- the fixed-point variant that moves planets and moons (`CelestialObject`).

Everything is pure functions over immutable datatypes. The modules are:

- `Results`: `Option` and `Result`.
- `Numbers`: a JavaScript number as `NaN | Val(real)`, plus the lifted arithmetic.
  - `Div` yields NaN on a zero divisor.
  - `MathLib` holds `sin`, `cos`, `tan`, `atan` and `sqrt`, passed in as arbitrary `real -> real` functions.
  - The ghost predicates `Periodic` and `Pythagorean` state the exact-real identities some lemmas assume.
- `Text`: `split`, `trim`, ASCII `toLowerCase` and `substring(0, n)`.
  - `Split` and `Join` are proved inverse in both directions.
- `Decimal`: `toString`, `padStart`, and a decimal-literal reading of `Number(s)`.
- `Calendar` (`WorldTime.js`):
  - the calendar record and the carry cascade of `run`;
  - `daysInMonth` as `Date` computes it;
  - the lagged accumulator of `update`, the setters, and `getFormattedTime`.
  - `Instant` is the absolute time a state denotes, in seconds from the start of year 0. Every carry keeps it, and `run(d)` adds exactly `d`.
- `Kepler` (`orbitEquation.js`): mean anomaly, the Newton loop, true anomaly, radius, the inclined plane, and scaling plus translation.
- `Celestial` (`CelestialObject.js`): the rotation axis, `setPosition`, and the fixed-point orbit.
  - The orbit has a null-origin guard, a negated period, a +90° inclination and no scale factor.
- `Constellation` (`Satellite.js`):
  - `parseTSV` and the numeric coercion;
  - colour classification and the buffer layout;
  - loading with its error path;
  - `updateSatellites` on top of `Kepler.Orbit`.

## Where infinity goes

Infinities are folded into NaN. For finite inputs this folding is exact for the orbit code:

- A zero period makes the mean anomaly infinite or NaN. The first Newton or fixed-point step then produces NaN, so every coordinate is NaN.
- A zero Newton denominator gives a NaN update.
- `e == 1` is the one place where a finite result comes out of an infinite intermediate (`atan(+inf)`). `Kepler.TrueAnomaly` handles it explicitly.

As a result, `isNaN(coord) ? 0 : coord` is modelled faithfully for finite inputs. An infinite period is the exception: its mean motion is 0 and the position is finite. It is listed under "## Left out" at `Celestial.Orbit` and `Kepler.Orbit`. Overflow of finite values is left out.

## Loader behaviour

The loader does not skip rows:

- A field that is not numeric stays text.
- One line with fewer fields than there are headers makes `bits[index].trim()` throw. The whole parse then fails, and the satellite list stays empty.

See `Constellation.ParseTsv`, `Constellation.TrailingNewlineFails` and `Constellation.Load`.

## Model

| member | source | states |
|---|---|---|
| Text.Split | public/javascripts/Satellite.js:25-26 | `split(sep)` yields at least one piece, and no piece contains the separator |
| Text.JoinSplit | public/javascripts/Satellite.js:25 | joining the pieces of a split with the separator gives back the original string |
| Text.SplitJoin | public/javascripts/Satellite.js:33 | splitting the join of separator-free pieces gives back exactly those pieces |
| Text.Trim | public/javascripts/Satellite.js:37 | `trim()` is the slice between the leading and trailing whitespace; the characters cut off on both sides are whitespace |
| Text.TrimIdempotent | public/javascripts/Satellite.js:37 | trimming twice equals trimming once |
| Text.ToLowerAscii | public/javascripts/Satellite.js:56 | lower-casing keeps the length, maps each upper-case ASCII letter to its lower-case letter, and keeps every other character |
| Text.Prefix | public/javascripts/Satellite.js:56 | `substring(0, n)` is a prefix of length the smaller of `n` and the length of `s` |
| Decimal.NatToDecimal | public/javascripts/WorldTime.js:62 | `toString` of a natural is a digit string without leading zeros, whose value is the number |
| Decimal.PadStart | public/javascripts/WorldTime.js:62 | `padStart(w, c)` has length the larger of `w` and the length of `s`, ends with `s`, and is filled with `c` in front |
| Decimal.ZeroPadValue | public/javascripts/WorldTime.js:62 | padding a digit string with '0' keeps it a digit string with the same value |
| Decimal.ParseNumber | public/javascripts/Satellite.js:28-30 | the empty string reads as 0, and only signs, digits and a point ever read as a number |
| Decimal.ParseFraction | public/javascripts/Satellite.js:28-30 | a literal `a.b` or `-a.b` of digits, with at least one fraction digit, reads as the whole digits plus the fraction digits over ten to their count, negated after a minus |
| Decimal.EccentricityExample | public/javascripts/Satellite.js:28-30 | the field `0.0012` reads as the number 0.0012 |
| Decimal.InclinationExample | public/javascripts/Satellite.js:28-30 | the field `-51.6` reads as the number -51.6 |
| Decimal.ParseIntToString | public/javascripts/Satellite.js:28-30 | `Number(i.toString())` gives back `i` for every integer |
| Calendar.Create | public/javascripts/WorldTime.js:5-20 | the constructor sets the clock, the date and the time scale as given, with velocity and acceleration at 0 |
| Calendar.IsLeapYear | public/javascripts/WorldTime.js:56-58 | a leap year is divisible by 4; a year divisible by 4 but not by 100 is leap; a century year is leap exactly when divisible by 400 |
| Calendar.LeapCycle | public/javascripts/WorldTime.js:56-58 | the leap-year rule repeats every 400 years |
| Calendar.DaysInMonth | public/javascripts/WorldTime.js:51-53 | `new Date(year, month, 0).getDate()` is between 28 and 31 for every month and year, with `Date`'s month carry and two-digit-year rule |
| Calendar.DaysInMonthGregorian | public/javascripts/WorldTime.js:51-58 | for months 1..12 outside years 0..99 the result is the Gregorian length; February has 29 days exactly in leap years |
| Calendar.LeapFebruaries | public/javascripts/WorldTime.js:51-58 | February has 29 days in 2024 and 2000 and 28 in 2023 and 1900 |
| Calendar.TwoDigitYearFebruary | public/javascripts/WorldTime.js:51-58 | year 0 is a leap year by `isLeapYear`, yet `daysInMonth(2, 0)` is 28, because `Date` reads year 0 as 1900 |
| Calendar.NextMonth | public/javascripts/WorldTime.js:41-46 | the month after 12 is 1 with the year one more; otherwise the year is unchanged; it steps the month index by exactly one |
| Calendar.CarrySeconds | public/javascripts/WorldTime.js:26-29 | the seconds loop ends below 60, never lowers the minutes, touches only seconds and minutes, and keeps the elapsed time |
| Calendar.CarryMinutes | public/javascripts/WorldTime.js:30-33 | the minutes loop ends below 60, touches only minutes and hours, and keeps the elapsed time |
| Calendar.CarryHours | public/javascripts/WorldTime.js:34-37 | the hours loop ends below 24, touches only hours and day, and keeps the elapsed time |
| Calendar.DayCarryStepKeepsInstant | public/javascripts/WorldTime.js:39-47 | one pass of the day loop moves to the next month and keeps the absolute time |
| Calendar.CarryDays | public/javascripts/WorldTime.js:39-47 | the day loop ends with the day within its month and the month in 1..12; it never lowers the year, touches only day, month and year, and keeps the absolute time |
| Calendar.Run | public/javascripts/WorldTime.js:23-48 | from an in-range state, `run(d)` with a non-negative result keeps every field in range and adds exactly `d` to the absolute time; below 60 seconds only `seconds` changes, so there is no borrow |
| Calendar.Update | public/javascripts/WorldTime.js:98-102 | velocity gains the previous acceleration, the new acceleration is delta times the scale, and the clock advances by that new acceleration |
| Calendar.RepeatLagsOneFrame | public/javascripts/WorldTime.js:98-102 | over any frame sequence, the velocity is the initial velocity and acceleration plus the scaled deltas of every frame but the last |
| Calendar.VelocityLagsOneFrame | public/javascripts/WorldTime.js:98-102 | `update` applied frame by frame has a velocity one frame behind the scaled deltas, and the acceleration is the last frame's |
| Calendar.VelocityFromConstruction | public/javascripts/WorldTime.js:18-19 | from a fresh clock the velocity is exactly the scaled sum of all deltas but the last |
| Calendar.SetSpecificTime | public/javascripts/WorldTime.js:72-79 | the six calendar fields take the given values; time scale, velocity and acceleration are unchanged |
| Calendar.SetTimeScale | public/javascripts/WorldTime.js:93-95 | only the time scale changes |
| Calendar.SettersCommute | public/javascripts/WorldTime.js:72-95 | the two setters touch disjoint fields, so their order does not matter |
| Calendar.TwoDigitsOf | public/javascripts/WorldTime.js:62 | a value below 100, padded to two, is two digits that read back as the value |
| Calendar.ClockDigits | public/javascripts/WorldTime.js:62 | with the clock in range, `HH:MM:SS` has colons at positions 2 and 5, and the three digit pairs read back as hours, minutes and whole seconds |
| Calendar.FormattedTime | public/javascripts/WorldTime.js:61-69 | without the date the result is the clock and reads back as above; with the date it is the date text, one space, then the clock |
| Calendar.DateReadsBack | public/javascripts/WorldTime.js:65 | with non-negative fields, the unpadded date splits at '/' into three digit strings equal to month, day and year |
| Calendar.FormattedDateReadsBack | public/javascripts/WorldTime.js:61-69 | in the dated format, the ninth character from the end is the space, and the part before it reads back as month, day and year |
| Kepler.SemiMajorAxis | public/javascripts/orbitEquation.js:78 | twice the semi-major axis is perigee plus apogee; NaN exactly when an input is NaN |
| Kepler.MeanAnomaly | public/javascripts/orbitEquation.js:79-82 | `(M - phase) * period = 2 pi time`; NaN exactly when the period is zero or an input is NaN |
| Kepler.Newton | public/javascripts/orbitEquation.js:85-91 | at most the budget of updates; an early exit only with residual below 1e-6; without an exit, all the budget is used; a NaN start stays NaN |
| Kepler.NewtonFollowsIterates | public/javascripts/orbitEquation.js:87-91 | the result is the iterate after as many updates as ran, and every earlier iterate failed the convergence test |
| Kepler.EccentricAnomaly | public/javascripts/orbitEquation.js:85-91 | starting from `E = M`, the result is the Newton iterate after the updates that ran: at most 10, all 10 unless the exit test passed, the test met on early exit and failed by every earlier iterate |
| Kepler.CircularNeedsNoUpdate | public/javascripts/orbitEquation.js:85-91 | with `e = 0` the first residual is zero, so `E = M` after no update |
| Kepler.TrueAnomaly | public/javascripts/orbitEquation.js:94 | finite only for `-1 <= e <= 1`; always finite for `-1 <= e < 1` and finite `E`; for `e = 1` it is pi, -pi or NaN |
| Kepler.Radius | public/javascripts/orbitEquation.js:97 | `r = a (1 - e cos E)` is NaN exactly when an input is; `e = 0` gives `r = a` |
| Kepler.PlanePoint | public/javascripts/orbitEquation.js:100-102 | finite exactly when the inputs are, and `Y sin(inc) = Z cos(inc)`, so the point lies in the inclined plane through the X axis |
| Kepler.PlanePointDistance | public/javascripts/orbitEquation.js:100-102 | with `sin^2 + cos^2 = 1`, the plane point lies at distance equal to the absolute value of `r` |
| Kepler.Place | public/javascripts/orbitEquation.js:105-109 | each coordinate is the origin's plus the local one times `scale * 25`; finite exactly when both are |
| Kepler.Orbit | public/javascripts/orbitEquation.js:72-110 | a finite result has a finite origin, and its offset from the origin satisfies `Y sin(inc) = Z cos(inc)` for `inc = degToRad(inclination)`: scaling keeps the inclined plane |
| Kepler.ZeroPeriodIsNaN | public/javascripts/orbitEquation.js:79-82 | a zero period makes every coordinate NaN |
| Kepler.OrbitOffset | public/javascripts/orbitEquation.js:98-109 | with a finite origin, the result is finite exactly when the local point `(X, Y, Z)` is, and then each coordinate is the origin's plus `realworldScaleFactor * 25` times the local one |
| Kepler.OrbitTranslation | public/javascripts/orbitEquation.js:105-109 | moving the origin by a finite shift moves the result by the same shift |
| Kepler.CircularOrbitRadius | public/javascripts/orbitEquation.js:85-109 | for `e = 0` and a nonzero period, the point is at distance `scale * 25 * (perigee + apogee) / 2` from the origin |
| Kepler.NewtonShifts | public/javascripts/orbitEquation.js:87-91 | with periodic trigonometry, shifting both anomalies by 2 pi shifts the loop's result by 2 pi, with the same passes and exit |
| Kepler.SolveShifts | public/javascripts/orbitEquation.js:85-91 | with periodic trigonometry, a mean anomaly 2 pi further gives an eccentric anomaly 2 pi further |
| Kepler.EccentricAnomalyShifts | public/javascripts/orbitEquation.js:79-91 | one more period adds exactly 2 pi to the solved eccentric anomaly |
| Kepler.OrbitPeriodic | public/javascripts/orbitEquation.js:72-110 | with periodic trigonometry, the position after one more period is the same |
| Celestial.RotationAxis | public/javascripts/CelestialObject.js:51-53 | the normalised `(sin t, cos t, 0)` has z exactly 0; x and y are finite exactly when `t` is |
| Celestial.RotationAxisUnit | public/javascripts/CelestialObject.js:51-53 | with an exact square root and a nonzero vector, the axis has unit length |
| Celestial.Create | public/javascripts/CelestialObject.js:16-26 | a new body sits at the scene origin, keeps its rotation speed, and has an axis with z 0 |
| Celestial.SetPosition | public/javascripts/CelestialObject.js:29-33 | exactly the three coordinates change, to the given values |
| Celestial.MeanAnomaly | public/javascripts/CelestialObject.js:85-88 | `M * period = -2 pi time`, with no phase; NaN exactly when the period is zero or an input is NaN |
| Celestial.MeanAnomalyReversesPeriod | public/javascripts/CelestialObject.js:85-88 | the planet's mean anomaly is the satellite's with the period negated and a zero phase |
| Celestial.FixedPoint | public/javascripts/CelestialObject.js:91-94 | any NaN input gives NaN; `e = 0` gives exactly `M` |
| Celestial.SolveFixedPoint | public/javascripts/CelestialObject.js:91-94 | the loop runs exactly 10 passes of `E := M + e sin E` from `E = M`, with no early exit |
| Celestial.FixedPointNearMean | public/javascripts/CelestialObject.js:91-94 | with `sin^2 + cos^2 = 1`, every finite result lies within the absolute value of `e` of `M` |
| Celestial.FixedPointShifts | public/javascripts/CelestialObject.js:91-94 | with periodic sine, shifting `M` and the start by 2 pi shifts the result by 2 pi |
| Celestial.Inclination | public/javascripts/CelestialObject.js:79 | the angle is `(inclination + 90) * pi / 180` |
| Celestial.Orbit | public/javascripts/CelestialObject.js:76-116 | a null origin leaves the body unchanged; rotation speed and axis never change; a finite position implies a finite origin |
| Celestial.OrbitOffset | public/javascripts/CelestialObject.js:106-113 | with a finite host, the new position is finite exactly when the rotated offset `(X, Y, Z)` is, and then equals the host position plus that offset, with no scale factor |
| Celestial.OrbitTranslation | public/javascripts/CelestialObject.js:111-113 | moving the host by a finite shift moves the body by the same shift |
| Celestial.OrbitPlane | public/javascripts/CelestialObject.js:106-112 | the offset from the host satisfies `Y sin(inc + 90°) = Z cos(inc + 90°)` |
| Celestial.CircularOrbitRadius | public/javascripts/CelestialObject.js:82-112 | for `e = 0` the body is at distance `(perigee + apogee) / 2` from its host, unscaled |
| Celestial.SolvedAnomalyShifts | public/javascripts/CelestialObject.js:85-94 | one more period lowers the solved anomaly by exactly 2 pi |
| Celestial.OrbitPeriodic | public/javascripts/CelestialObject.js:76-116 | with periodic trigonometry, the body returns to the same place after one period |
| Constellation.Coerce | public/javascripts/Satellite.js:28-30 | a field becomes a number exactly when it reads as one, and is then the number the field reads as; otherwise it stays the same text; the empty field is the number 0 |
| Constellation.Fields | public/javascripts/Satellite.js:36-38 | fails exactly when there are fewer values than headers; keys are the old ones plus the headers; a header not repeated later gets its column's value; other keys keep their values |
| Constellation.Row | public/javascripts/Satellite.js:33-39 | a line yields a record exactly when it has at least as many tab fields as there are headers |
| Constellation.RowContents | public/javascripts/Satellite.js:33-39 | a record has exactly the headers plus `initPhase` as keys, so extra fields are ignored; a non-repeated header holds its trimmed, coerced field; `initPhase` holds the drawn phase unless a column overrides it |
| Constellation.Included | public/javascripts/Satellite.js:25-32 | the included lines are the lines after the header, cut at `slice(0, maxEntries)` |
| Constellation.SliceEnd | public/javascripts/Satellite.js:32 | `slice(0, end)` keeps `min(end, n)` items, and counts a negative end from the back |
| Constellation.Collect | public/javascripts/Satellite.js:32-40 | succeeds exactly when every item does, with the values in order; otherwise it reports the first failing index |
| Constellation.ParseTsv | public/javascripts/Satellite.js:24-41 | succeeds exactly when every included line has enough fields; then record `k` is line `k`'s row with phase `2 pi random(k)`; otherwise the error names the first short line |
| Constellation.InitPhaseInRange | public/javascripts/Satellite.js:35 | for `random` in [0, 1), the record's `initPhase` is a number in [0, 2 pi) |
| Constellation.ShortLineFails | public/javascripts/Satellite.js:37 | one included line with fewer fields than headers makes the whole parse fail |
| Constellation.TrailingNewlineFails | public/javascripts/Satellite.js:25-39 | data ending in a newline, with two or more headers and no cut, fails to parse, because the last line is empty |
| Constellation.Flat | public/javascripts/Satellite.js:49-72 | the buffer has three entries per item, and item `k` sits at `3k`, `3k+1` and `3k+2` |
| Constellation.UsersColour | public/javascripts/Satellite.js:56-67 | blue, green, red or yellow exactly when the lower-cased first three characters are civ, com, gov or mil; white exactly otherwise |
| Constellation.ColourIgnoresCase | public/javascripts/Satellite.js:56 | lower-casing the `Users` text first does not change the colour |
| Constellation.ColourReadsThreeCharacters | public/javascripts/Satellite.js:56 | characters after the third never change the colour |
| Constellation.ColourExamples | public/javascripts/Satellite.js:56-67 | "Civil", "COMMERCIAL", "Government/Commercial", "Military" and "Mi" get blue, green, red, yellow and white |
| Constellation.UsersOf | public/javascripts/Satellite.js:56 | `Users` can be read as text exactly when the key is present with a text value |
| Constellation.EmptyUsersHasNoColour | public/javascripts/Satellite.js:28-56 | an empty `Users` field is coerced to the number 0, which has no `substring` |
| Constellation.CreateObjects | public/javascripts/Satellite.js:44-87 | succeeds exactly when every record has text `Users`; then it gives `3n` zero vertex coordinates and, at `3k..3k+2`, the colour of record `k`; otherwise it names the first record without one |
| Constellation.Load | public/javascripts/Satellite.js:13-21 | a failed fetch or a failed parse leaves the list empty; otherwise the list is the parsed records |
| Constellation.TrailingNewlineLoadsNothing | public/javascripts/Satellite.js:13-39 | a dataset saved with a trailing newline and at least two columns loads no satellites |
| Constellation.Create | public/javascripts/Satellite.js:5-9 | the records are the loaded ones; buffers exist exactly when every record could be coloured, and then they are the created ones |
| Constellation.Field | public/javascripts/Satellite.js:94-103 | a record field in arithmetic is its number; a missing or text field is NaN |
| Constellation.Sanitize | public/javascripts/Satellite.js:104 | finite coordinates pass through; NaN coordinates become 0 |
| Constellation.Positions | public/javascripts/Satellite.js:90-105 | `3n` entries; entries `3k..3k+2` are the sanitised orbit of record `k`, with its period negated and its `initPhase` as phase |
| Constellation.UpdateSatellites | public/javascripts/Satellite.js:90-113 | with no records or no buffers nothing changes; otherwise only the position buffer is replaced, by the new positions |
| Constellation.NoPeriodAtSceneOrigin | public/javascripts/Satellite.js:94-104 | a satellite whose period is 0, missing or text is drawn at the scene origin `(0, 0, 0)`, not at its host |

## Left out

- The scene glue is not part of this model, because it is three.js setup, GUI and rendering with no logic to state:
  - `Manager.js`, `visualization.js`, `Earth.js`, `Sun.js`, `Moon.js`, `config.js` and the static server `index.js`.
  - `Manager.js` passes a plain number to `WorldTime.update`, which calls `getDelta()` on its argument. That call site is not modelled.
- `update` takes the frame delta as a plain real. The `getDelta()` clock read is outside the model.
- Other operations are left out because each reads a clock, the DOM or three.js object state:
  - `setCurrentTime` reads the system clock, and `display()` writes the DOM;
  - `setRotation`, `getPosition` and `displayOn` call three.js;
  - `sat.mesh` and `scene.add` are replaced by an optional geometry value.
- The three.js text display in the `WorldTime` constructor is not modelled.
- `Math.random()` is a parameter `random(k)`, one draw per record in order, and the fetch result is a parameter. Console logging is left out.
- Floating point is left out. Numbers are exact reals, so rounding, `Float32Array` storage and the overflow of finite values to infinity are not modelled, and `PI` is the double literal taken as a real.
- `sin`, `cos`, `tan`, `atan` and `sqrt` are arbitrary functions. Their accuracy, and convergence "within tolerance", are not modelled.
  - `Kepler.CircularOrbitRadius`, `Kepler.OrbitPeriodic`, `Celestial.CircularOrbitRadius`, `Celestial.OrbitPeriodic`, `Celestial.FixedPointNearMean` and `Celestial.RotationAxisUnit` hold only under exact identities (`Pythagorean`, `Periodic`, `SqrtExact`), which floating-point functions do not satisfy.
- Decimal.ParseNumber: reads only an optional sign, digits and at most one point. JavaScript's `Number` also reads exponents, hexadecimal, `Infinity` and similar forms. Such fields stay text in the model, where the source would make them numbers.
- Constellation.Field: a text field used in arithmetic is NaN. This is exact for `-`, `*` and `degToRad`. It is not exact for `+`, which concatenates when an operand is text, and that string concatenation is not modelled. The two places are:
  - `perigee + apogee` (Satellite.js:121 and orbitEquation.js:78), when either field is text;
  - `n * time + initialPhase` (Satellite.js:125 and orbitEquation.js:82), when a data column named `initPhase` replaces the drawn phase with text. For a field such as `e3` the source builds a string like `"5e3"`, which the later subtractions read as 5000, giving a finite orbit. The model puts that satellite at (0, 0, 0).
- Text.ToLowerAscii: lower-cases ASCII letters only. Comparing against "civ", "com", "gov" and "mil" is unaffected, because no other character lower-cases to a 3-character prefix equal to one of them.
- Celestial.Orbit: does not represent an infinite period. The time-speed slider (Manager.js:194) allows a time scale of 0. The sun's and moon's period `-P / timeScale` (Manager.js:289, 297) is then -Infinity, so the mean motion `2 * PI / period` is 0, `M`, `E` and the true anomaly are 0, and the body is drawn at its host plus `(a(1 - e), 0, 0)`. The model folds the infinite period into NaN, so its position is NaN. Manager.js is not part of this model.
- Kepler.Orbit: does not represent an infinite period either. A period field reading `Infinity` would give mean motion 0 and a finite position at the initial phase. `Decimal.ParseNumber` keeps that field as text, and `Constellation.Field` makes it NaN.
- Calendar.DaysInMonth: models `Date`'s month carry and its mapping of years 0..99 to 1900..1999, but not the limit on the range of `Date`, outside which the source gets NaN.
- Calendar.Create: takes minutes, hours, day, month and year as integers. In JavaScript they are numbers, so the constructor also accepts fractions: `hours = 1.5` would print as "1.5", and a fractional day changes the day loop. Every call site in the repository passes integers, and fractional values are not modelled.
- Calendar.SetSpecificTime: takes the same five fields as integers, for the same reason as `Calendar.Create`, so fractional arguments are not modelled.
- Constructor defaults (`initHours = 0` and so on) are not modelled; the parameters are always given. `maxEntries` is an integer, not a fractional or undefined value.
- A header named like an `Object.prototype` member (`__proto__`) is an ordinary key in the model.

=== FILE: calendar.dfy ===
/**
  The world-time engine: a calendar state advanced by a scaled frame delta,
  with cascading carries from seconds up to years.
 */
module Calendar {
  import Decimal
  import Text

  /** The fields of a `WorldTime` object that its logic reads and writes. */
  datatype WorldTime = WorldTime(
    seconds: real,
    minutes: int,
    hours: int,
    day: int,
    month: int,
    year: int,
    timeScale: real,
    velocity: real,
    acceleration: real)

  /** The constructor: the given clock and date, and both accumulators at zero. */
  function Create(hours: int, minutes: int, seconds: real, month: int, day: int, year: int,
                  timeScale: real): (r: WorldTime)
    ensures r.velocity == 0.0 && r.acceleration == 0.0
    ensures r.timeScale == timeScale
    ensures r.hours == hours && r.minutes == minutes && r.seconds == seconds
    ensures r.month == month && r.day == day && r.year == year
  {
    WorldTime(seconds, minutes, hours, day, month, year, timeScale, 0.0, 0.0)
  }

  // ---------------------------------------------------------------- months

  /**
    `isLeapYear`: the Gregorian rule. Testing a remainder against zero gives
    the same answer under JavaScript's truncating `%` as under Dafny's, so
    negative years follow the same rule.
   */
  function IsLeapYear(year: int): (r: bool)
    ensures r ==> year % 4 == 0
    ensures year % 4 == 0 && year % 100 != 0 ==> r
    ensures year % 100 == 0 ==> (r <==> year % 400 == 0)
  {
    (year % 4 == 0 && year % 100 != 0) || year % 400 == 0
  }

  /** The rule repeats every 400 years. */
  lemma LeapCycle(year: int)
    ensures IsLeapYear(year + 400) == IsLeapYear(year)
  {
    assert (year + 400) % 4 == year % 4 && (year + 400) % 100 == year % 100;
    assert (year + 400) % 400 == year % 400;
  }

  /** Length of month `m` of year `y` in the proleptic Gregorian calendar. */
  function MonthLength(m: int, y: int): int
    requires 1 <= m <= 12
  {
    if m == 2 then (if IsLeapYear(y) then 29 else 28)
    else if m == 4 || m == 6 || m == 9 || m == 11 then 30
    else 31
  }

  /** The year a JavaScript `Date` is built for: the years 0..99 mean 1900..1999. */
  function DateYear(year: int): int {
    if 0 <= year <= 99 then 1900 + year else year
  }

  /**
    `new Date(year, month, 0).getDate()`: the last day of the 1-based `month`.
    `Date` first maps a two-digit year into the 1900s, then carries a month
    outside 1..12 into the neighbouring years.
   */
  function DaysInMonth(month: int, year: int): (r: int)
    ensures 28 <= r <= 31
  {
    var k := 12 * DateYear(year) + month - 1;
    MonthLength(k % 12 + 1, k / 12)
  }

  /** For years `Date` takes literally, the Gregorian table with a leap February. */
  lemma DaysInMonthGregorian(month: int, year: int)
    requires 1 <= month <= 12
    requires year < 0 || year > 99
    ensures DaysInMonth(month, year) == MonthLength(month, year)
    ensures month == 2 ==> (DaysInMonth(month, year) == 29 <==> IsLeapYear(year))
  {
    var k := 12 * year + month - 1;
    assert k % 12 == month - 1 && k / 12 == year;
  }

  /** The leap-year rule on four sample years, two leap and two not, one of them a century. */
  lemma LeapFebruaries()
    ensures DaysInMonth(2, 2024) == 29 && DaysInMonth(2, 2023) == 28
    ensures DaysInMonth(2, 1900) == 28 && DaysInMonth(2, 2000) == 29
  {
    DaysInMonthGregorian(2, 2024);
    DaysInMonthGregorian(2, 2023);
    DaysInMonthGregorian(2, 1900);
    DaysInMonthGregorian(2, 2000);
  }

  /** Year 0 is a Gregorian leap year, but `Date` reads it as 1900, which is not. */
  lemma TwoDigitYearFebruary()
    ensures IsLeapYear(0) && DaysInMonth(2, 0) == 28
  {
    assert 12 * DateYear(0) + 2 - 1 == 12 * 1900 + 1;
  }

  /**
    The month that follows as `run` steps it: past December comes January of
    the next year, and the year changes in no other case.
   */
  function NextMonth(month: int, year: int): (r: (int, int))
    ensures 1 <= month <= 12 ==> 1 <= r.0 <= 12 && 12 * r.1 + r.0 == 12 * year + month + 1
    ensures month >= 1 ==> r.0 >= 1
    ensures r.1 == year + 1 <==> month + 1 > 12
    ensures r.1 == year || r.1 == year + 1
  {
    if month + 1 > 12 then (1, year + 1) else (month + 1, year)
  }

  // ------------------------------------------------------ absolute time

  /** Months counted from January of year 0. */
  function MonthIndex(t: WorldTime): int {
    12 * t.year + t.month - 1
  }

  /** Length of the month with index `k`. */
  function MonthLengthAt(k: int): int {
    DaysInMonth(k % 12 + 1, k / 12)
  }

  lemma MonthLengthAtIndex(t: WorldTime)
    requires 1 <= t.month <= 12
    ensures MonthLengthAt(MonthIndex(t)) == DaysInMonth(t.month, t.year)
  {
    var k := MonthIndex(t);
    assert k % 12 == t.month - 1 && k / 12 == t.year;
  }

  /** Days from the start of month index 0 to the start of month index `k`. */
  function MonthStart(k: int): int
    decreases if k >= 0 then k else -k
  {
    if k == 0 then 0
    else if k > 0 then MonthStart(k - 1) + MonthLengthAt(k - 1)
    else MonthStart(k + 1) - MonthLengthAt(k)
  }

  lemma MonthStartStep(k: int)
    ensures MonthStart(k + 1) == MonthStart(k) + MonthLengthAt(k)
  {
  }

  /** Seconds since the start of the current month. */
  function SecondsIntoMonth(t: WorldTime): real {
    t.seconds + 60.0 * t.minutes as real + 3600.0 * t.hours as real + 86400.0 * (t.day - 1) as real
  }

  /**
    The absolute time a calendar state denotes, in seconds since the start of
    January of year 0. Meaningful when `month` is in 1..12.
   */
  function Instant(t: WorldTime): real {
    SecondsIntoMonth(t) + 86400.0 * MonthStart(MonthIndex(t)) as real
  }

  /** Every calendar field within its range. */
  predicate InRange(t: WorldTime) {
    && 0.0 <= t.seconds < 60.0
    && 0 <= t.minutes < 60
    && 0 <= t.hours < 24
    && 1 <= t.month <= 12
    && 1 <= t.day <= DaysInMonth(t.month, t.year)
  }

  // ------------------------------------------------------------ carries

  /** Moves whole minutes out of the seconds into the minutes. */
  function CarrySeconds(t: WorldTime): (r: WorldTime)
    ensures r.seconds < 60.0
    ensures t.seconds >= 0.0 ==> r.seconds >= 0.0
    ensures r.minutes >= t.minutes
    ensures r == t.(seconds := r.seconds, minutes := r.minutes)
    ensures t.seconds < 60.0 ==> r == t
    ensures SecondsIntoMonth(r) == SecondsIntoMonth(t)
    decreases t.seconds
  {
    if t.seconds >= 60.0 then
      CarrySeconds(t.(seconds := t.seconds - 60.0, minutes := t.minutes + 1))
    else t
  }

  /** Moves whole hours out of the minutes into the hours. */
  function CarryMinutes(t: WorldTime): (r: WorldTime)
    ensures r.minutes < 60
    ensures t.minutes >= 0 ==> r.minutes >= 0
    ensures r.hours >= t.hours
    ensures r == t.(minutes := r.minutes, hours := r.hours)
    ensures t.minutes < 60 ==> r == t
    ensures SecondsIntoMonth(r) == SecondsIntoMonth(t)
    decreases t.minutes
  {
    if t.minutes >= 60 then CarryMinutes(t.(minutes := t.minutes - 60, hours := t.hours + 1))
    else t
  }

  /** Moves whole days out of the hours into the day of the month. */
  function CarryHours(t: WorldTime): (r: WorldTime)
    ensures r.hours < 24
    ensures t.hours >= 0 ==> r.hours >= 0
    ensures r.day >= t.day
    ensures r == t.(hours := r.hours, day := r.day)
    ensures t.hours < 24 ==> r == t
    ensures SecondsIntoMonth(r) == SecondsIntoMonth(t)
    decreases t.hours
  {
    if t.hours >= 24 then CarryHours(t.(hours := t.hours - 24, day := t.day + 1))
    else t
  }

  /** One pass of the day loop's body: drop a month's worth of days, step the month. */
  function DayCarryStep(t: WorldTime): WorldTime {
    var next := NextMonth(t.month, t.year);
    t.(day := t.day - DaysInMonth(t.month, t.year), month := next.0, year := next.1)
  }

  lemma DayCarryStepKeepsInstant(t: WorldTime)
    ensures 1 <= t.month <= 12 ==>
      MonthIndex(DayCarryStep(t)) == MonthIndex(t) + 1 && Instant(DayCarryStep(t)) == Instant(t)
  {
    if 1 <= t.month <= 12 {
      MonthLengthAtIndex(t);
      MonthStartStep(MonthIndex(t));
    }
  }

  /**
    Moves whole months out of the day of the month: while the day is past the
    end of its month, drops that month's length and steps to the next month,
    into the next year after December.
   */
  function CarryDays(t: WorldTime): (r: WorldTime)
    ensures r.day <= DaysInMonth(r.month, r.year)
    ensures t.day >= 1 ==> r.day >= 1
    ensures t.month >= 1 ==> r.month >= 1
    ensures t.month <= 12 ==> r.month <= 12
    ensures r.year >= t.year
    ensures r == t.(day := r.day, month := r.month, year := r.year)
    ensures t.day <= DaysInMonth(t.month, t.year) ==> r == t
    ensures 1 <= t.month <= 12 ==> MonthIndex(r) >= MonthIndex(t) && Instant(r) == Instant(t)
    decreases t.day
  {
    if t.day > DaysInMonth(t.month, t.year) then
      DayCarryStepKeepsInstant(t);
      CarryDays(DayCarryStep(t))
    else t
  }

  /**
    `run(deltaTime)`: add the delta to the seconds, then carry upwards.
    Carries only ever go up: a negative delta leaves the seconds negative.
   */
  function Run(t: WorldTime, delta: real): (r: WorldTime)
    ensures r.timeScale == t.timeScale && r.velocity == t.velocity && r.acceleration == t.acceleration
    ensures r.seconds < 60.0 && r.minutes < 60 && r.hours < 24
    ensures r.day <= DaysInMonth(r.month, r.year)
    ensures t.seconds + delta >= 0.0 ==> r.seconds >= 0.0
    ensures t.minutes >= 0 ==> r.minutes >= 0
    ensures t.hours >= 0 ==> r.hours >= 0
    ensures t.day >= 1 ==> r.day >= 1
    ensures 1 <= t.month <= 12 ==> 1 <= r.month <= 12
    ensures r.year >= t.year
    ensures 1 <= t.month <= 12 ==> MonthIndex(r) >= MonthIndex(t) && Instant(r) == Instant(t) + delta
    ensures InRange(t) && t.seconds + delta >= 0.0 ==> InRange(r)
    ensures InRange(t) && t.seconds + delta < 60.0 ==> r == t.(seconds := t.seconds + delta)
  {
    CarryDays(CarryHours(CarryMinutes(CarrySeconds(t.(seconds := t.seconds + delta)))))
  }

  // ------------------------------------------------------------ update

  /**
    `update(deltaTime)`: the velocity takes in the acceleration of the
    previous frame, the acceleration becomes this frame's scaled delta, and the
    calendar runs by it. `frameDelta` is the value `deltaTime.getDelta()` returns.
   */
  function Update(t: WorldTime, frameDelta: real): (r: WorldTime)
    ensures r.velocity == t.velocity + t.acceleration
    ensures r.acceleration == frameDelta * t.timeScale
    ensures r.timeScale == t.timeScale
    ensures 1 <= t.month <= 12 ==> Instant(r) == Instant(t) + frameDelta * t.timeScale
    ensures InRange(t) && t.seconds + frameDelta * t.timeScale >= 0.0 ==> InRange(r)
  {
    var t' := t.(velocity := t.velocity + t.acceleration, acceleration := frameDelta * t.timeScale);
    Run(t', t'.acceleration)
  }

  /** The state after `step` is applied once per frame with the given deltas. */
  function Repeat(step: (WorldTime, real) -> WorldTime, t: WorldTime, frameDeltas: seq<real>): WorldTime
    decreases |frameDeltas|
  {
    if |frameDeltas| == 0 then t else Repeat(step, step(t, frameDeltas[0]), frameDeltas[1..])
  }

  /** The state after `update` is called once per frame with the given deltas. */
  function UpdateAll(t: WorldTime, frameDeltas: seq<real>): WorldTime {
    Repeat(Update, t, frameDeltas)
  }

  /** The accelerations `update` derives from the deltas at a fixed time scale, summed. */
  function ScaledSum(frameDeltas: seq<real>, timeScale: real): real
    decreases |frameDeltas|
  {
    if |frameDeltas| == 0 then 0.0 else frameDeltas[0] * timeScale + ScaledSum(frameDeltas[1..], timeScale)
  }

  /** What `update` does to the accumulators and the time scale. */
  ghost predicate AccumulatesLikeUpdate(step: (WorldTime, real) -> WorldTime) {
    forall t, d {:trigger step(t, d)} ::
      && step(t, d).velocity == t.velocity + t.acceleration
      && step(t, d).acceleration == d * t.timeScale
      && step(t, d).timeScale == t.timeScale
  }

  lemma StepAccumulates(step: (WorldTime, real) -> WorldTime, t: WorldTime, d: real)
    requires AccumulatesLikeUpdate(step)
    ensures step(t, d).velocity == t.velocity + t.acceleration
    ensures step(t, d).acceleration == d * t.timeScale
    ensures step(t, d).timeScale == t.timeScale
  {
  }

  lemma {:induction false} RepeatLagsOneFrame(step: (WorldTime, real) -> WorldTime, t: WorldTime,
                                              frameDeltas: seq<real>)
    requires AccumulatesLikeUpdate(step)
    requires |frameDeltas| >= 1
    ensures Repeat(step, t, frameDeltas).velocity
            == t.velocity + t.acceleration + ScaledSum(frameDeltas[..|frameDeltas| - 1], t.timeScale)
    ensures Repeat(step, t, frameDeltas).acceleration == frameDeltas[|frameDeltas| - 1] * t.timeScale
    ensures Repeat(step, t, frameDeltas).timeScale == t.timeScale
    decreases |frameDeltas|
  {
    var n := |frameDeltas|;
    var t' := step(t, frameDeltas[0]);
    var rest := frameDeltas[1..];
    StepAccumulates(step, t, frameDeltas[0]);
    assert Repeat(step, t, frameDeltas) == Repeat(step, t', rest);
    if n == 1 {
      assert Repeat(step, t', rest) == t';
      assert frameDeltas[..n - 1] == [];
      assert ScaledSum(frameDeltas[..n - 1], t.timeScale) == 0.0;
    } else {
      RepeatLagsOneFrame(step, t', rest);
      var init := frameDeltas[..n - 1];
      assert init[0] == frameDeltas[0] && init[1..] == rest[..n - 2];
    }
  }

  /**
    The velocity lags one frame behind: after n updates it has taken in the
    accelerations of the first n - 1 frames, and the acceleration is the last one.
   */
  lemma VelocityLagsOneFrame(t: WorldTime, frameDeltas: seq<real>)
    requires |frameDeltas| >= 1
    ensures UpdateAll(t, frameDeltas).velocity
            == t.velocity + t.acceleration + ScaledSum(frameDeltas[..|frameDeltas| - 1], t.timeScale)
    ensures UpdateAll(t, frameDeltas).acceleration == frameDeltas[|frameDeltas| - 1] * t.timeScale
  {
    RepeatLagsOneFrame(Update, t, frameDeltas);
  }

  /** Starting from the constructor, the velocity is the scaled sum of all but the last delta. */
  lemma VelocityFromConstruction(hours: int, minutes: int, seconds: real, month: int, day: int,
                                 year: int, timeScale: real, frameDeltas: seq<real>)
    requires |frameDeltas| >= 1
    ensures UpdateAll(Create(hours, minutes, seconds, month, day, year, timeScale), frameDeltas).velocity
            == ScaledSum(frameDeltas[..|frameDeltas| - 1], timeScale)
  {
    VelocityLagsOneFrame(Create(hours, minutes, seconds, month, day, year, timeScale), frameDeltas);
  }

  // ----------------------------------------------------------- setters

  /** `setSpecificTime`: the six calendar fields, and nothing else. */
  function SetSpecificTime(t: WorldTime, hours: int, minutes: int, seconds: real,
                           month: int, day: int, year: int): (r: WorldTime)
    ensures r.hours == hours && r.minutes == minutes && r.seconds == seconds
    ensures r.month == month && r.day == day && r.year == year
    ensures r.timeScale == t.timeScale && r.velocity == t.velocity && r.acceleration == t.acceleration
  {
    t.(hours := hours, minutes := minutes, seconds := seconds, month := month, day := day, year := year)
  }

  /** `setTimeScale`: the time scale, and nothing else. */
  function SetTimeScale(t: WorldTime, value: real): (r: WorldTime)
    ensures r.timeScale == value
    ensures r.seconds == t.seconds && r.minutes == t.minutes && r.hours == t.hours
    ensures r.day == t.day && r.month == t.month && r.year == t.year
    ensures r.velocity == t.velocity && r.acceleration == t.acceleration
  {
    t.(timeScale := value)
  }

  /** The two setters touch disjoint fields, so their order does not matter. */
  lemma SettersCommute(t: WorldTime, value: real, hours: int, minutes: int, seconds: real,
                       month: int, day: int, year: int)
    ensures SetTimeScale(SetSpecificTime(t, hours, minutes, seconds, month, day, year), value)
            == SetSpecificTime(SetTimeScale(t, value), hours, minutes, seconds, month, day, year)
  {
  }

  // -------------------------------------------------------- formatting

  /** A value written in decimal and padded with zeros to two characters. */
  function TwoDigits(x: int): string {
    Decimal.PadStart(Decimal.IntToString(x), 2, '0')
  }

  /** `HH:MM:SS`, the seconds rounded down. */
  function Clock(t: WorldTime): string {
    TwoDigits(t.hours) + ":" + TwoDigits(t.minutes) + ":" + TwoDigits(t.seconds.Floor)
  }

  /** `month/day/year`, unpadded. */
  function DateText(t: WorldTime): string {
    Decimal.IntToString(t.month) + "/" + Decimal.IntToString(t.day) + "/" + Decimal.IntToString(t.year)
  }

  lemma TwoDigitsOf(x: int)
    requires 0 <= x < 100
    ensures |TwoDigits(x)| == 2 && Decimal.AllDigits(TwoDigits(x))
    ensures Decimal.DigitsValue(TwoDigits(x)) == x
  {
    Decimal.ZeroPadValue(Decimal.NatToDecimal(x), 2);
  }

  /**
    `getFormattedTime(includeDate)`: the clock, preceded by the date and a
    space when asked for. In range, the clock reads back as the hours,
    minutes and whole seconds.
   */
  function FormattedTime(t: WorldTime, includeDate: bool): (r: string)
    ensures !includeDate && ClockInRange(t) ==> ClockReads(r, t)
    ensures !includeDate ==> r == Clock(t)
    ensures includeDate ==> |r| == |DateText(t)| + 1 + |Clock(t)|
                            && r[..|DateText(t)|] == DateText(t) && r[|DateText(t)|] == ' '
                            && r[|DateText(t)| + 1..] == Clock(t)
  {
    if includeDate then
      SpaceJoined(DateText(t), Clock(t));
      DateText(t) + " " + Clock(t)
    else
      ClockDigits(t);
      Clock(t)
  }

  lemma SpaceJoined(a: string, b: string)
    ensures var r := a + " " + b;
      |r| == |a| + 1 + |b| && r[..|a|] == a && r[|a|] == ' ' && r[|a| + 1..] == b
  {
    var r := a + " " + b;
    assert r[..|a|] == a;
    assert r[|a| + 1..] == b;
  }

  predicate ClockInRange(t: WorldTime) {
    0 <= t.hours < 24 && 0 <= t.minutes < 60 && 0.0 <= t.seconds < 60.0
  }

  /** `c` is `HH:MM:SS` with two digits each for the hours, minutes and whole seconds of `t`. */
  predicate ClockReads(c: string, t: WorldTime) {
    && |c| == 8 && c[2] == ':' && c[5] == ':'
    && Decimal.AllDigits(c[0..2]) && Decimal.AllDigits(c[3..5]) && Decimal.AllDigits(c[6..8])
    && Decimal.DigitsValue(c[0..2]) == t.hours
    && Decimal.DigitsValue(c[3..5]) == t.minutes
    && Decimal.DigitsValue(c[6..8]) == t.seconds.Floor
  }

  /**
    The date part of the formatted time reads back: with non-negative
    fields, the text before the clock splits at '/' into the month, day and
    year.
   */
  lemma FormattedDateReadsBack(t: WorldTime)
    requires t.month >= 0 && t.day >= 0 && t.year >= 0
    requires ClockInRange(t)
    ensures var r := FormattedTime(t, true);
      && |r| > 9 && r[|r| - 9] == ' '
      && var p := Text.Split(r[..|r| - 9], '/');
      && |p| == 3
      && Decimal.AllDigits(p[0]) && Decimal.AllDigits(p[1]) && Decimal.AllDigits(p[2])
      && Decimal.DigitsValue(p[0]) == t.month
      && Decimal.DigitsValue(p[1]) == t.day
      && Decimal.DigitsValue(p[2]) == t.year
  {
    var r := FormattedTime(t, true);
    ClockDigits(t);
    assert |Clock(t)| == 8;
    assert r[..|r| - 9] == DateText(t);
    DateReadsBack(t);
  }

  /** The date text splits at '/' into the month, day and year. */
  lemma DateReadsBack(t: WorldTime)
    requires t.month >= 0 && t.day >= 0 && t.year >= 0
    ensures var p := Text.Split(DateText(t), '/');
      && |p| == 3
      && Decimal.AllDigits(p[0]) && Decimal.AllDigits(p[1]) && Decimal.AllDigits(p[2])
      && Decimal.DigitsValue(p[0]) == t.month
      && Decimal.DigitsValue(p[1]) == t.day
      && Decimal.DigitsValue(p[2]) == t.year
  {
    DateSplitsNonNegative(t);
    var m, d, y := Decimal.NatToDecimal(t.month), Decimal.NatToDecimal(t.day), Decimal.NatToDecimal(t.year);
    assert Decimal.DigitsValue(m) == t.month && Decimal.DigitsValue(d) == t.day && Decimal.DigitsValue(y) == t.year;
  }

  lemma ClockDigits(t: WorldTime)
    ensures ClockInRange(t) ==> ClockReads(Clock(t), t)
  {
    if 0 <= t.hours < 24 && 0 <= t.minutes < 60 && 0.0 <= t.seconds < 60.0 {
      TwoDigitsOf(t.hours);
      TwoDigitsOf(t.minutes);
      TwoDigitsOf(t.seconds.Floor);
      ClockLayout(TwoDigits(t.hours), TwoDigits(t.minutes), TwoDigits(t.seconds.Floor));
    }
  }

  lemma ClockLayout(a: string, b: string, c: string)
    requires |a| == 2 && |b| == 2 && |c| == 2
    ensures var s := a + ":" + b + ":" + c;
      |s| == 8 && s[2] == ':' && s[5] == ':' && s[0..2] == a && s[3..5] == b && s[6..8] == c
  {
  }

  lemma DateSplitsNonNegative(t: WorldTime)
    requires t.month >= 0 && t.day >= 0 && t.year >= 0
    ensures Text.Split(DateText(t), '/')
            == [Decimal.NatToDecimal(t.month), Decimal.NatToDecimal(t.day), Decimal.NatToDecimal(t.year)]
  {
    var parts := [Decimal.NatToDecimal(t.month), Decimal.NatToDecimal(t.day), Decimal.NatToDecimal(t.year)];
    forall i | 0 <= i < 3 ensures '/' !in parts[i] {
      forall k | 0 <= k < |parts[i]| ensures parts[i][k] != '/' {
        assert Decimal.IsDigit(parts[i][k]);
      }
    }
    assert Text.Join(parts[2..], '/') == parts[2];
    assert Text.Join(parts[1..], '/') == parts[1] + "/" + parts[2];
    assert Text.Join(parts, '/') == DateText(t);
    Text.SplitJoin(parts, '/');
  }
}

=== FILE: celestial.dfy ===
/**
  A celestial body (sun, earth, moon): its position, rotation speed and axis,
  and its own orbit variant, which runs a fixed number of fixed-point passes
  on Kepler's equation, reverses the period, offsets the inclination by 90
  degrees and applies no scale factor.
 */
module Celestial {
  import opened Numbers
  import opened Results
  import Kepler

  /** The number of fixed-point passes, run in full every time. */
  const FIXED_POINT_STEPS: nat := 10

  /** Degrees added to the inclination before it is converted to radians. */
  const INCLINATION_OFFSET: real := 90.0

  /** The state of a body this model follows. */
  datatype Body = Body(position: Vec3, rotationSpeed: Num, axis: Vec3)

  /**
    `new Vector3(sin t, cos t, 0).normalize()`: divided by its length, or by 1
    when the length is zero or NaN. The z component is zero in every case.
   */
  function RotationAxis(lib: MathLib, tilt: Num): (r: Vec3)
    ensures r.z == Val(0.0)
    ensures r.x.Val? <==> tilt.Val?
    ensures r.y.Val? <==> tilt.Val?
  {
    var v := Vec3(Sin(lib, tilt), Cos(lib, tilt), Val(0.0));
    var divisor :=
      if tilt.Val? && lib.sqrt(v.x.v * v.x.v + v.y.v * v.y.v + 0.0 * 0.0) != 0.0
      then lib.sqrt(v.x.v * v.x.v + v.y.v * v.y.v + 0.0 * 0.0)
      else 1.0;
    var k := Val(1.0 / divisor);
    Vec3(Mul(v.x, k), Mul(v.y, k), Mul(v.z, k))
  }

  /** With an exact square root, the axis has unit length unless sin and cos both vanish. */
  lemma {:induction false} RotationAxisUnit(lib: MathLib, tilt: real)
    requires SqrtExact(lib)
    requires lib.sin(tilt) != 0.0 || lib.cos(tilt) != 0.0
    ensures var r := RotationAxis(lib, Val(tilt));
      r.x.v * r.x.v + r.y.v * r.y.v + r.z.v * r.z.v == 1.0
  {
    NonZeroSquares(lib.sin(tilt), lib.cos(tilt));
    var l := lib.sqrt(lib.sin(tilt) * lib.sin(tilt) + lib.cos(tilt) * lib.cos(tilt) + 0.0 * 0.0);
    UnitAfterDivision(lib.sin(tilt), lib.cos(tilt), l);
  }

  lemma NonZeroSquares(s: real, c: real)
    requires s != 0.0 || c != 0.0
    ensures s * s + c * c + 0.0 * 0.0 > 0.0
  {
    assert s * s >= 0.0 && c * c >= 0.0;
    if s != 0.0 { PositiveSquare(s); } else { PositiveSquare(c); }
  }

  lemma PositiveSquare(x: real)
    requires x != 0.0
    ensures x * x > 0.0
  {
    if x < 0.0 { assert x * x == (-x) * (-x); }
  }

  lemma UnitAfterDivision(s: real, c: real, l: real)
    requires l != 0.0
    requires l * l == s * s + c * c + 0.0 * 0.0
    ensures (s * (1.0 / l)) * (s * (1.0 / l)) + (c * (1.0 / l)) * (c * (1.0 / l)) + (0.0 * (1.0 / l)) * (0.0 * (1.0 / l)) == 1.0
  {
    var k := 1.0 / l;
    assert k * l == 1.0;
    assert (s * k) * (s * k) + (c * k) * (c * k) == (s * s + c * c) * (k * k);
    assert (s * s + c * c) * (k * k) == (l * l) * (k * k) == (l * k) * (l * k);
  }

  /** The constructor's state: at the scene origin, with the axis its tilt gives. */
  function Create(lib: MathLib, rotationSpeed: Num, tilt: Num): (r: Body)
    ensures r.position == Vec3(Val(0.0), Val(0.0), Val(0.0))
    ensures r.rotationSpeed == rotationSpeed
    ensures r.axis.z == Val(0.0)
  {
    Body(Vec3(Val(0.0), Val(0.0), Val(0.0)), rotationSpeed, RotationAxis(lib, tilt))
  }

  /** `setPosition(x, y, z)`: the three coordinates, and nothing else. */
  function SetPosition(b: Body, x: Num, y: Num, z: Num): (r: Body)
    ensures r.position.x == x && r.position.y == y && r.position.z == z
    ensures r.rotationSpeed == b.rotationSpeed && r.axis == b.axis
  {
    b.(position := Vec3(x, y, z))
  }

  /** The mean anomaly `(2 * PI / -period) * time`, with no initial phase. */
  function MeanAnomaly(period: Num, time: Num): (m: Num)
    ensures m.Val? <==> period.Val? && period.v != 0.0 && time.Val?
    ensures m.Val? ==> m.v * period.v == -TWO_PI * time.v
  {
    Kepler.MeanMotionScales(Neg(period), time);
    Mul(Div(Val(TWO_PI), Neg(period)), time)
  }

  /** The body's mean anomaly is the satellites' one for the reversed period and a zero phase. */
  lemma MeanAnomalyReversesPeriod(period: Num, time: Num)
    ensures MeanAnomaly(period, time) == Kepler.MeanAnomaly(Neg(period), time, Val(0.0))
  {
  }

  /** One pass, `E = M + e * sin(E)`. */
  function FixedPointStep(lib: MathLib, e: Num, m: Num, ecc: Num): Num {
    Add(m, Mul(e, Sin(lib, ecc)))
  }

  /** `k` passes from `ecc`. */
  function FixedPoint(lib: MathLib, e: Num, m: Num, ecc: Num, k: nat): (r: Num)
    ensures k > 0 && (m == NaN || e == NaN || ecc == NaN) ==> r == NaN
    ensures k > 0 && e == Val(0.0) && m.Val? && ecc.Val? ==> r == m
    decreases k
  {
    if k == 0 then ecc else FixedPoint(lib, e, m, FixedPointStep(lib, e, m, ecc), k - 1)
  }

  /** The loop of the orbit function, pass by pass, from `E = M`. */
  method SolveFixedPoint(lib: MathLib, e: Num, m: Num) returns (ecc: Num)
    ensures ecc == FixedPoint(lib, e, m, m, FIXED_POINT_STEPS)
  {
    ecc := m;
    var i := 0;
    while i < FIXED_POINT_STEPS
      invariant 0 <= i <= FIXED_POINT_STEPS
      invariant FixedPoint(lib, e, m, ecc, FIXED_POINT_STEPS - i) == FixedPoint(lib, e, m, m, FIXED_POINT_STEPS)
    {
      ecc := FixedPointStep(lib, e, m, ecc);
      i := i + 1;
    }
  }

  /** With |sin| <= 1, every pass lands within |e| of the mean anomaly. */
  lemma {:induction false} FixedPointNearMean(lib: MathLib, e: real, m: real, ecc: Num, k: nat)
    requires Pythagorean(lib)
    requires k > 0
    ensures var r := FixedPoint(lib, Val(e), Val(m), ecc, k);
      r.Val? ==> Abs(r.v - m) <= Abs(e)
    decreases k
  {
    if ecc.Val? {
      var s := lib.sin(ecc.v);
      assert s * s + lib.cos(ecc.v) * lib.cos(ecc.v) == 1.0;
      SineBounded(s, lib.cos(ecc.v));
      ProductBound(e, s);
      if k > 1 {
        FixedPointNearMean(lib, e, m, FixedPointStep(lib, Val(e), Val(m), ecc), k - 1);
      }
    }
  }

  lemma SineBounded(s: real, c: real)
    requires s * s + c * c == 1.0
    ensures -1.0 <= s <= 1.0
  {
    assert c * c >= 0.0;
    assert s * s <= 1.0;
  }

  lemma ProductBound(e: real, s: real)
    requires -1.0 <= s <= 1.0
    ensures Abs(e * s) <= Abs(e)
  {
    if e >= 0.0 {
      if s >= 0.0 { assert e * s <= e * 1.0; } else { assert e * s >= e * -1.0; }
    } else {
      if s >= 0.0 { assert e * s >= e * 1.0; } else { assert e * s <= e * -1.0; }
    }
  }

  /** Shifting the mean anomaly and the start by 2 pi shifts every pass by 2 pi. */
  lemma {:induction false} FixedPointShifts(lib: MathLib, e: Num, m: real, ecc: Num, k: nat)
    requires Periodic(lib)
    ensures FixedPoint(lib, e, Val(m + TWO_PI), Add(ecc, Val(TWO_PI)), k)
            == Add(FixedPoint(lib, e, Val(m), ecc, k), Val(TWO_PI))
    decreases k
  {
    if k > 0 {
      if ecc.Val? {
        assert lib.sin(ecc.v + TWO_PI) == lib.sin(ecc.v);
        assert FixedPointStep(lib, e, Val(m + TWO_PI), Add(ecc, Val(TWO_PI)))
               == Add(FixedPointStep(lib, e, Val(m), ecc), Val(TWO_PI));
      }
      FixedPointShifts(lib, e, m, FixedPointStep(lib, e, Val(m), ecc), k - 1);
    }
  }

  /** `degToRad(inclination + 90)`. */
  function Inclination(inclination: Num): (r: Num)
    ensures r.Val? <==> inclination.Val?
    ensures r.Val? ==> r.v == (inclination.v + INCLINATION_OFFSET) * (PI / 180.0)
  {
    DegToRad(Add(inclination, Val(INCLINATION_OFFSET)))
  }

  /** The body's offset from its host, before the translation. */
  function LocalPosition(lib: MathLib, perigee: Num, apogee: Num, e: Num, inclination: Num,
                         period: Num, time: Num): Vec3 {
    var a := Kepler.SemiMajorAxis(perigee, apogee);
    var m := MeanAnomaly(period, time);
    var ecc := FixedPoint(lib, e, m, m, FIXED_POINT_STEPS);
    Kepler.PlanePoint(lib, Kepler.Radius(lib, a, e, ecc), Kepler.TrueAnomaly(lib, e, ecc), Inclination(inclination))
  }

  /**
    `orbit(origin, perigee, apogee, eccentricity, inclination, period, time)`:
    with no origin nothing happens; otherwise the position becomes the local
    offset added to the origin's position, unscaled.
   */
  function Orbit(lib: MathLib, b: Body, origin: Option<Vec3>, perigee: Num, apogee: Num, e: Num,
                 inclination: Num, period: Num, time: Num): (r: Body)
    ensures origin.None? ==> r == b
    ensures r.rotationSpeed == b.rotationSpeed && r.axis == b.axis
    ensures origin.Some? && Finite(r.position) ==> Finite(origin.value)
  {
    match origin
    case None => b
    case Some(host) =>
      var q := LocalPosition(lib, perigee, apogee, e, inclination, period, time);
      b.(position := VAdd(q, host))
  }

  /**
    The body sits at its local offset from a finite host, unscaled: the
    position is finite exactly when the offset is, and then differs from the
    host by the offset in every coordinate.
   */
  lemma OrbitOffset(lib: MathLib, b: Body, host: Vec3, perigee: Num, apogee: Num, e: Num,
                    inclination: Num, period: Num, time: Num)
    requires Finite(host)
    ensures var p := Orbit(lib, b, Some(host), perigee, apogee, e, inclination, period, time).position;
      var q := LocalPosition(lib, perigee, apogee, e, inclination, period, time);
      && (Finite(p) <==> Finite(q))
      && (Finite(p) ==> p.x.v - host.x.v == q.x.v && p.y.v - host.y.v == q.y.v && p.z.v - host.z.v == q.z.v)
  {
  }

  /** The orbit is rigid under a move of the host: moving the host moves the body by as much. */
  lemma OrbitTranslation(lib: MathLib, b: Body, host: Vec3, shift: Vec3, perigee: Num, apogee: Num,
                         e: Num, inclination: Num, period: Num, time: Num)
    requires Finite(shift)
    ensures Orbit(lib, b, Some(VAdd(host, shift)), perigee, apogee, e, inclination, period, time).position
            == VAdd(Orbit(lib, b, Some(host), perigee, apogee, e, inclination, period, time).position, shift)
  {
  }

  /** The point lies in the plane through the host tilted by the offset inclination. */
  lemma OrbitPlane(lib: MathLib, b: Body, host: Vec3, perigee: Num, apogee: Num, e: Num,
                   inclination: real, period: Num, time: Num)
    requires Finite(host)
    ensures var p := Orbit(lib, b, Some(host), perigee, apogee, e, Val(inclination), period, time).position;
      var inc := (inclination + INCLINATION_OFFSET) * (PI / 180.0);
      Finite(p) ==> (p.y.v - host.y.v) * lib.sin(inc) == (p.z.v - host.z.v) * lib.cos(inc)
  {
  }

  /** A circular orbit keeps the body at distance `a` from the host: no scale factor applies. */
  lemma {:induction false} CircularOrbitRadius(lib: MathLib, b: Body, host: Vec3, perigee: real,
                                               apogee: real, inclination: real, period: real, time: real)
    requires Pythagorean(lib)
    requires period != 0.0
    requires Finite(host)
    ensures var p := Orbit(lib, b, Some(host), Val(perigee), Val(apogee), Val(0.0), Val(inclination),
                           Val(period), Val(time)).position;
      var a := (perigee + apogee) / 2.0;
      && Finite(p)
      && (p.x.v - host.x.v) * (p.x.v - host.x.v) + (p.y.v - host.y.v) * (p.y.v - host.y.v)
         + (p.z.v - host.z.v) * (p.z.v - host.z.v) == a * a
  {
    var m := MeanAnomaly(Val(period), Val(time));
    var a := (perigee + apogee) / 2.0;
    var v := Kepler.TrueAnomaly(lib, Val(0.0), m);
    var inc := Inclination(Val(inclination));
    var q := LocalPosition(lib, Val(perigee), Val(apogee), Val(0.0), Val(inclination), Val(period), Val(time));
    assert q == Kepler.PlanePoint(lib, Val(a), v, inc);
    Kepler.PlanePointDistance(lib, a, v.v, inc.v);
  }

  /** One more period takes exactly 2 pi off the mean anomaly, as the period is reversed. */
  lemma MeanAnomalyShifts(period: real, time: real)
    requires period != 0.0
    ensures MeanAnomaly(Val(period), Val(time)) == Add(MeanAnomaly(Val(period), Val(time + period)), Val(TWO_PI))
  {
    var n := TWO_PI / -period;
    assert n * -period == TWO_PI;
    assert n * (time + period) == n * time + n * period;
  }

  /** The solved anomaly one period later is the same angle less 2 pi. */
  lemma SolvedAnomalyShifts(lib: MathLib, e: Num, period: real, time: real)
    requires Periodic(lib)
    requires period != 0.0
    ensures var m := MeanAnomaly(Val(period), Val(time));
      var m' := MeanAnomaly(Val(period), Val(time + period));
      FixedPoint(lib, e, m, m, FIXED_POINT_STEPS) == Add(FixedPoint(lib, e, m', m', FIXED_POINT_STEPS), Val(TWO_PI))
  {
    MeanAnomalyShifts(period, time);
    var m := MeanAnomaly(Val(period), Val(time));
    var m' := MeanAnomaly(Val(period), Val(time + period));
    assert m == Val(m'.v + TWO_PI) == Add(m', Val(TWO_PI));
    FixedPointShifts(lib, e, m'.v, m', FIXED_POINT_STEPS);
  }

  /** With exact periodic trigonometry the body is back where it was after one period. */
  lemma OrbitPeriodic(lib: MathLib, b: Body, origin: Option<Vec3>, perigee: Num, apogee: Num, e: Num,
                      inclination: Num, period: real, time: real)
    requires Periodic(lib)
    requires period != 0.0
    ensures Orbit(lib, b, origin, perigee, apogee, e, inclination, Val(period), Val(time + period))
            == Orbit(lib, b, origin, perigee, apogee, e, inclination, Val(period), Val(time))
  {
    var m' := MeanAnomaly(Val(period), Val(time + period));
    var ecc' := FixedPoint(lib, e, m', m', FIXED_POINT_STEPS);
    SolvedAnomalyShifts(lib, e, period, time);
    if ecc'.Val? {
      Kepler.AnomalyStagesShift(lib, Kepler.SemiMajorAxis(perigee, apogee), e, ecc'.v);
    }
    assert LocalPosition(lib, perigee, apogee, e, inclination, Val(period), Val(time + period))
           == LocalPosition(lib, perigee, apogee, e, inclination, Val(period), Val(time));
  }
}

=== FILE: constellation.dfy ===
/**
  The satellite constellation: the tab-separated dataset parsed into records,
  the colour each record gets from its `Users` column, the point buffers, and
  the per-frame update that writes every satellite's orbit position.
 */
module Constellation {
  import opened Numbers
  import opened Results
  import Text
  import Decimal
  import Kepler

  /** A field of a parsed record: numeric text becomes a number, the rest stays text. */
  datatype Value = Number(n: real) | Str(s: string)

  /** A parsed satellite: its column values by header, plus the injected phase. */
  type Record = map<string, Value>

  /** The key under which every record gets its random initial phase. */
  const INIT_PHASE: string := "initPhase"

  /** The column the colour is read from. */
  const USERS: string := "Users"

  /**
    The `TypeError` a field access throws, with the index of the first item it
    is thrown for: a line with fewer fields than headers while parsing, a
    record without a text `Users` value while colouring.
   */
  datatype Failure = MissingField(index: nat)

  // ------------------------------------------------------------ parsing

  /** The numeric coercion of a trimmed field: a number when it reads as one, otherwise the text itself. */
  function Coerce(field: string): (v: Value)
    ensures v.Str? ==> v.s == field && Decimal.ParseNumber(field).None?
    ensures v.Number? <==> Decimal.ParseNumber(field).Some?
    ensures v.Number? ==> Decimal.ParseNumber(field) == Some(v.n)
    ensures field == "" ==> v == Number(0.0)
  {
    match Decimal.ParseNumber(field)
    case Some(x) => Number(x)
    case None => Str(field)
  }

  /** The distinct headers. */
  function Named(headers: seq<string>): set<string> {
    set h | h in headers
  }

  /** `headers[i]` is not repeated later, so its value in a record is the one from column `i`. */
  predicate LastOccurrence(headers: seq<string>, i: nat)
    requires i < |headers|
  {
    forall j :: i < j < |headers| ==> headers[j] != headers[i]
  }

  /**
    The `forEach` over the headers: each header in turn is set to the value of
    its column, so a repeated header keeps the value of its last column. A
    missing column makes `bits[index].trim()` throw.
   */
  function Fields<V>(headers: seq<string>, values: seq<V>, acc: map<string, V>): (r: Option<map<string, V>>)
    ensures r.Some? <==> |values| >= |headers|
    ensures r.Some? ==> r.value.Keys == acc.Keys + Named(headers)
    ensures r.Some? ==> forall i :: 0 <= i < |headers| && LastOccurrence(headers, i) ==>
                          r.value[headers[i]] == values[i]
    ensures r.Some? ==> forall key :: key in acc && key !in headers ==> r.value[key] == acc[key]
    decreases |headers|
  {
    if |headers| == 0 then Some(acc)
    else if |values| == 0 then None
    else
      var r := Fields(headers[1..], values[1..], acc[headers[0] := values[0]]);
      if r.Some? then
        FieldsSome(headers, values, acc, r.value);
        r
      else r
  }

  lemma FieldsSome<V>(headers: seq<string>, values: seq<V>, acc: map<string, V>, rest: map<string, V>)
    requires 0 < |headers| <= |values|
    requires var acc' := acc[headers[0] := values[0]];
      && rest.Keys == acc'.Keys + Named(headers[1..])
      && (forall i :: 0 <= i < |headers| - 1 && LastOccurrence(headers[1..], i) ==>
            rest[headers[1..][i]] == values[1..][i])
      && (forall key :: key in acc' && key !in headers[1..] ==> rest[key] == acc'[key])
    ensures rest.Keys == acc.Keys + Named(headers)
    ensures forall i :: 0 <= i < |headers| && LastOccurrence(headers, i) ==> rest[headers[i]] == values[i]
    ensures forall key :: key in acc && key !in headers ==> rest[key] == acc[key]
  {
    var tail := headers[1..];
    assert Named(headers) == {headers[0]} + Named(tail) by {
      assert headers == [headers[0]] + tail;
    }
    forall i | 0 <= i < |headers| && LastOccurrence(headers, i)
      ensures rest[headers[i]] == values[i]
    {
      if i == 0 {
        assert headers[0] !in tail by {
          forall j | 0 <= j < |tail| ensures tail[j] != headers[0] {
            assert headers[j + 1] == tail[j];
          }
        }
      } else {
        assert LastOccurrence(tail, i - 1) by {
          forall j | i - 1 < j < |tail| ensures tail[j] != tail[i - 1] {
            assert tail[j] == headers[j + 1];
          }
        }
        assert tail[i - 1] == headers[i] && values[1..][i - 1] == values[i];
      }
    }
  }

  /** Every field of a line, trimmed and coerced. */
  function Cells(bits: seq<string>): (r: seq<Value>)
    ensures |r| == |bits|
    ensures forall i :: 0 <= i < |bits| ==> r[i] == Coerce(Text.Trim(bits[i]))
  {
    seq(|bits|, i requires 0 <= i < |bits| => Coerce(Text.Trim(bits[i])))
  }

  /** The record built from one line's cells: the injected phase, then the columns. */
  function Build(headers: seq<string>, cells: seq<Value>, phase: real): Option<Record> {
    Fields(headers, cells, map[INIT_PHASE := Number(phase)])
  }

  /** One data line: its tab-separated fields under the headers, after the injected phase. */
  function Row(headers: seq<string>, line: string, phase: real): (r: Option<Record>)
    ensures r.Some? <==> |Text.Split(line, '\t')| >= |headers|
  {
    Build(headers, Cells(Text.Split(line, '\t')), phase)
  }

  /** The end index `Array.prototype.slice(0, end)` uses on a list of length `n`. */
  function SliceEnd(n: nat, end: int): (k: nat)
    ensures k <= n
    ensures end >= 0 ==> k == if end < n then end else n
    ensures end < 0 ==> k == if n + end > 0 then n + end else 0
  {
    if end < 0 then (if n + end > 0 then n + end else 0)
    else if end < n then end else n
  }

  /** The first line of the data, split at tabs. */
  function Headers(data: string): seq<string> {
    Text.Split(Text.Split(data, '\n')[0], '\t')
  }

  /** The data lines `parseTSV` turns into records: after the header, cut at `maxEntries`. */
  function Included(data: string, maxEntries: int): (rows: seq<string>)
    ensures var lines := Text.Split(data, '\n');
      |rows| == SliceEnd(|lines| - 1, maxEntries) && rows == lines[1..1 + |rows|]
  {
    var lines := Text.Split(data, '\n');
    lines[1..][..SliceEnd(|lines| - 1, maxEntries)]
  }

  /** The cells of every line. */
  function Table(rows: seq<string>): (t: seq<seq<Value>>)
    ensures |t| == |rows|
    ensures forall k :: 0 <= k < |rows| ==> t[k] == Cells(Text.Split(rows[k], '\t'))
  {
    seq(|rows|, k requires 0 <= k < |rows| => Cells(Text.Split(rows[k], '\t')))
  }

  /** Every line's record, or `None` where the line is short; line `k` draws `random(k)`. */
  function Built(headers: seq<string>, table: seq<seq<Value>>, random: nat -> real): (b: seq<Option<Record>>)
    ensures |b| == |table|
    ensures forall k :: 0 <= k < |table| ==> b[k] == Build(headers, table[k], TWO_PI * random(k))
  {
    seq(|table|, k requires 0 <= k < |table| => Build(headers, table[k], TWO_PI * random(k)))
  }

  /**
    The `map` over the lines, where the first line that throws ends the whole
    parse: its index (counted from `start`) is the error.
   */
  function Collect<T>(opts: seq<Option<T>>, start: nat): (r: Result<seq<T>, Failure>)
    ensures r.Ok? <==> forall k :: 0 <= k < |opts| ==> opts[k].Some?
    ensures r.Ok? ==> |r.value| == |opts| && forall k :: 0 <= k < |opts| ==> opts[k] == Some(r.value[k])
    ensures r.Err? ==> && start <= r.error.index < start + |opts|
                       && opts[r.error.index - start].None?
                       && forall k :: 0 <= k < r.error.index - start ==> opts[k].Some?
    decreases |opts|
  {
    if |opts| == 0 then Ok([])
    else if opts[0].None? then Err(MissingField(start))
    else
      var rest := Collect(opts[1..], start + 1);
      assert forall k :: 1 <= k < |opts| ==> opts[1..][k - 1] == opts[k];
      match rest
      case Err(e) => Err(e)
      case Ok(tail) =>
        var r := [opts[0].value] + tail;
        assert forall k :: 1 <= k < |opts| ==> r[k] == tail[k - 1];
        Ok(r)
  }

  /**
    `parseTSV(data, maxEntries)`. `random(k)` stands for the `Math.random()`
    drawn for the `k`-th record. The result is an error exactly when an
    included line has fewer fields than the header line; otherwise there is one
    record per included line, in order.
   */
  function ParseTsv(data: string, maxEntries: int, random: nat -> real): (r: Result<seq<Record>, Failure>)
    ensures r.Ok? <==> forall k :: 0 <= k < |Included(data, maxEntries)| ==>
                         |Text.Split(Included(data, maxEntries)[k], '\t')| >= |Headers(data)|
    ensures r.Ok? ==> |r.value| == |Included(data, maxEntries)|
    ensures r.Ok? ==> forall k :: 0 <= k < |r.value| ==>
              Some(r.value[k]) == Row(Headers(data), Included(data, maxEntries)[k], TWO_PI * random(k))
    ensures r.Err? ==> && r.error.index < |Included(data, maxEntries)|
                       && |Text.Split(Included(data, maxEntries)[r.error.index], '\t')| < |Headers(data)|
                       && forall k :: 0 <= k < r.error.index ==>
                            |Text.Split(Included(data, maxEntries)[k], '\t')| >= |Headers(data)|
  {
    Collect(Built(Headers(data), Table(Included(data, maxEntries)), random), 0)
  }

  /**
    What a record holds: a key for each header and the phase; under a header
    that is not repeated, the trimmed and coerced field of its column; and,
    unless a column is itself named `initPhase`, the drawn phase.
   */
  lemma RowContents(headers: seq<string>, line: string, phase: real)
    requires |Text.Split(line, '\t')| >= |headers|
    ensures var r := Row(headers, line, phase);
      && r.Some?
      && r.value.Keys == {INIT_PHASE} + Named(headers)
      && (forall i :: 0 <= i < |headers| && LastOccurrence(headers, i) ==>
            r.value[headers[i]] == Coerce(Text.Trim(Text.Split(line, '\t')[i])))
      && (INIT_PHASE !in headers ==> r.value[INIT_PHASE] == Number(phase))
  {
  }

  /**
    The phase `2 * PI * Math.random()` is in [0, 2 pi), as `Math.random()` is
    in [0, 1); with `ParseTsv`'s contract this holds for every parsed record.
   */
  lemma InitPhaseInRange(headers: seq<string>, line: string, x: real)
    requires |Text.Split(line, '\t')| >= |headers|
    requires INIT_PHASE !in headers && 0.0 <= x < 1.0
    ensures var r := Row(headers, line, TWO_PI * x);
      r.Some? && INIT_PHASE in r.value && r.value[INIT_PHASE].Number?
      && 0.0 <= r.value[INIT_PHASE].n < TWO_PI
  {
    RowContents(headers, line, TWO_PI * x);
    PhaseBelowTurn(Row(headers, line, TWO_PI * x).value[INIT_PHASE], x);
  }

  lemma PhaseBelowTurn(v: Value, x: real)
    requires v == Number(TWO_PI * x) && 0.0 <= x < 1.0
    ensures v.Number? && 0.0 <= v.n < TWO_PI
  {
  }

  /**
    A trailing newline leaves an empty last line, which has a single field:
    with two or more headers, and nothing cutting the list short, parsing fails.
   */
  lemma TrailingNewlineFails(data: string, maxEntries: int, random: nat -> real)
    requires |data| > 0 && data[|data| - 1] == '\n'
    requires |Headers(data)| >= 2
    requires maxEntries >= |Text.Split(data, '\n')| - 1
    ensures ParseTsv(data, maxEntries, random).Err?
  {
    LastIncludedLineEmpty(data, maxEntries);
    var rows := Included(data, maxEntries);
    ShortLineFails(data, maxEntries, random, |rows| - 1);
  }

  lemma LastIncludedLineEmpty(data: string, maxEntries: int)
    requires |data| > 0 && data[|data| - 1] == '\n'
    requires maxEntries >= |Text.Split(data, '\n')| - 1
    ensures var rows := Included(data, maxEntries);
      |rows| >= 1 && rows[|rows| - 1] == "" && |Text.Split(rows[|rows| - 1], '\t')| == 1
  {
    var lines := Text.Split(data, '\n');
    assert data == data[..|data| - 1] + ['\n'];
    SplitEndsAtSeparator(data[..|data| - 1], '\n');
    var rows := Included(data, maxEntries);
    assert |rows| == |lines| - 1;
    assert rows[|rows| - 1] == lines[|lines| - 1];
  }

  /** One included line with fewer fields than headers makes the whole parse fail. */
  lemma ShortLineFails(data: string, maxEntries: int, random: nat -> real, k: nat)
    requires k < |Included(data, maxEntries)|
    requires |Text.Split(Included(data, maxEntries)[k], '\t')| < |Headers(data)|
    ensures ParseTsv(data, maxEntries, random).Err?
  {
  }

  lemma {:induction false} SplitEndsAtSeparator(s: string, sep: char)
    ensures var r := Text.Split(s + [sep], sep);
      |r| >= 2 && r[|r| - 1] == ""
    decreases |s|
  {
    var t := s + [sep];
    if |s| == 0 {
      assert t == [sep] && t[1..] == [];
    } else {
      assert t[1..] == s[1..] + [sep];
      SplitEndsAtSeparator(s[1..], sep);
    }
  }

  // ------------------------------------------------------------ colours and buffers

  /** Three consecutive entries of a `Float32BufferAttribute` with item size 3. */
  datatype Triple = Triple(x: real, y: real, z: real)

  const BLUE: Triple := Triple(0.0, 0.0, 1.0)
  const GREEN: Triple := Triple(0.0, 1.0, 0.0)
  const RED: Triple := Triple(1.0, 0.0, 0.0)
  const YELLOW: Triple := Triple(1.0, 1.0, 0.0)
  const WHITE: Triple := Triple(1.0, 1.0, 1.0)

  /** The buffer layout: item `k` occupies entries `3k`, `3k + 1` and `3k + 2`. */
  function Flat(items: seq<Triple>): (r: seq<real>)
    ensures |r| == 3 * |items|
    ensures forall k :: 0 <= k < |items| ==>
              r[3 * k] == items[k].x && r[3 * k + 1] == items[k].y && r[3 * k + 2] == items[k].z
    decreases |items|
  {
    if |items| == 0 then []
    else
      var rest := Flat(items[1..]);
      var r := [items[0].x, items[0].y, items[0].z] + rest;
      assert forall k :: 1 <= k < |items| ==>
        r[3 * k] == items[k].x && r[3 * k + 1] == items[k].y && r[3 * k + 2] == items[k].z by {
        forall k | 1 <= k < |items|
          ensures r[3 * k] == items[k].x && r[3 * k + 1] == items[k].y && r[3 * k + 2] == items[k].z
        {
          var j := k - 1;
          assert items[1..][j] == items[k];
          assert 3 * k == 3 * j + 3;
        }
      }
      r
  }

  /** The colour for a `Users` value: blue civil, green commercial, red government, yellow military, else white. */
  function UsersColour(users: string): (c: Triple)
    ensures var p := Text.ToLowerAscii(Text.Prefix(users, 3));
      && (c == BLUE <==> p == "civ")
      && (c == GREEN <==> p == "com")
      && (c == RED <==> p == "gov")
      && (c == YELLOW <==> p == "mil")
      && (c == WHITE <==> p != "civ" && p != "com" && p != "gov" && p != "mil")
  {
    var prefix := Text.ToLowerAscii(Text.Prefix(users, 3));
    if prefix == "civ" then BLUE
    else if prefix == "com" then GREEN
    else if prefix == "gov" then RED
    else if prefix == "mil" then YELLOW
    else WHITE
  }

  /** Lower-casing first changes nothing: the comparison ignores case. */
  lemma ColourIgnoresCase(users: string)
    ensures UsersColour(Text.ToLowerAscii(users)) == UsersColour(users)
  {
    var lower := Text.ToLowerAscii(users);
    var a := Text.ToLowerAscii(Text.Prefix(lower, 3));
    var b := Text.ToLowerAscii(Text.Prefix(users, 3));
    assert |a| == |b|;
    forall k | 0 <= k < |a| ensures a[k] == b[k] {
      assert Text.Prefix(lower, 3)[k] == lower[k];
      assert Text.Prefix(users, 3)[k] == users[k];
    }
    assert a == b;
  }

  /** Only the first three characters count. */
  lemma ColourReadsThreeCharacters(users: string, rest: string)
    requires |users| >= 3
    ensures UsersColour(users + rest) == UsersColour(users)
  {
    assert Text.Prefix(users + rest, 3) == Text.Prefix(users, 3);
  }

  lemma ColourExamples()
    ensures UsersColour("Civil") == BLUE
    ensures UsersColour("COMMERCIAL") == GREEN
    ensures UsersColour("Government/Commercial") == RED
    ensures UsersColour("Military") == YELLOW
    ensures UsersColour("Mi") == WHITE
  {
    assert Text.Prefix("Civil", 3) == "Civ";
    assert Text.Prefix("COMMERCIAL", 3) == "COM";
    assert Text.Prefix("Government/Commercial", 3) == "Gov";
    assert Text.Prefix("Military", 3) == "Mil";
    assert Text.ToLowerAscii("Civ") == "civ";
    assert Text.ToLowerAscii("COM") == "com";
    assert Text.ToLowerAscii("Gov") == "gov";
    assert Text.ToLowerAscii("Mil") == "mil";
    assert Text.ToLowerAscii("Mi") == "mi";
  }

  /** `sat.Users` when it is text; a missing value or a number has no `substring`. */
  function UsersOf(rec: Record): (u: Option<string>)
    ensures u.Some? <==> USERS in rec && rec[USERS].Str?
    ensures u.Some? ==> rec[USERS] == Str(u.value)
  {
    if USERS in rec && rec[USERS].Str? then Some(rec[USERS].s) else None
  }

  /** An empty `Users` field reads as the number 0, so the record cannot be coloured. */
  lemma EmptyUsersHasNoColour(headers: seq<string>, line: string, phase: real, i: nat)
    requires |Text.Split(line, '\t')| >= |headers|
    requires i < |headers| && headers[i] == USERS && LastOccurrence(headers, i)
    requires Text.Trim(Text.Split(line, '\t')[i]) == ""
    ensures UsersOf(Row(headers, line, phase).value).None?
  {
    RowContents(headers, line, phase);
  }

  /** The point buffers: every vertex at the origin, one colour per satellite. */
  datatype Geometry = Geometry(positions: seq<real>, colors: seq<real>)

  function Colours(sats: seq<Record>): (c: seq<Option<Triple>>)
    ensures |c| == |sats|
    ensures forall k :: 0 <= k < |sats| ==>
              c[k] == if UsersOf(sats[k]).Some? then Some(UsersColour(UsersOf(sats[k]).value)) else None
  {
    seq(|sats|, k requires 0 <= k < |sats| =>
      if UsersOf(sats[k]).Some? then Some(UsersColour(UsersOf(sats[k]).value)) else None)
  }

  /**
    `createSatelliteObjects`: three zero coordinates and three colour components
    per satellite, or the `TypeError` of the first satellite without text `Users`.
   */
  function CreateObjects(sats: seq<Record>): (r: Result<Geometry, Failure>)
    ensures r.Ok? <==> forall k :: 0 <= k < |sats| ==> UsersOf(sats[k]).Some?
    ensures r.Ok? ==> |r.value.positions| == 3 * |sats|
                      && forall i :: 0 <= i < |r.value.positions| ==> r.value.positions[i] == 0.0
    ensures r.Ok? ==> |r.value.colors| == 3 * |sats|
                      && forall k :: 0 <= k < |sats| ==>
                           var c := UsersColour(UsersOf(sats[k]).value);
                           r.value.colors[3 * k] == c.x && r.value.colors[3 * k + 1] == c.y
                           && r.value.colors[3 * k + 2] == c.z
    ensures r.Err? ==> && r.error.index < |sats|
                       && UsersOf(sats[r.error.index]).None?
                       && forall k :: 0 <= k < r.error.index ==> UsersOf(sats[k]).Some?
  {
    match Collect(Colours(sats), 0)
    case Err(e) => Err(e)
    case Ok(colours) => Ok(Geometry(seq(3 * |sats|, _ => 0.0), Flat(colours)))
  }

  // ------------------------------------------------------------ loading and the frame update

  /** The satellite layer: the parsed records and, once created, the shared point buffers. */
  datatype Satellites = Satellites(records: seq<Record>, geometry: Option<Geometry>)

  /**
    `loadSatelliteData`: `fetched` is the response text, `None` when the fetch
    fails. Any failure is caught and leaves the list empty.
   */
  function Load(fetched: Option<string>, maxEntries: int, random: nat -> real): (sats: seq<Record>)
    ensures fetched.None? ==> sats == []
    ensures fetched.Some? && ParseTsv(fetched.value, maxEntries, random).Err? ==> sats == []
    ensures fetched.Some? && ParseTsv(fetched.value, maxEntries, random).Ok? ==>
              sats == ParseTsv(fetched.value, maxEntries, random).value
  {
    if fetched.None? then []
    else match ParseTsv(fetched.value, maxEntries, random)
      case Ok(records) => records
      case Err(_) => []
  }

  /** A dataset saved with a trailing newline and at least two columns loads no satellites at all. */
  lemma TrailingNewlineLoadsNothing(data: string, maxEntries: int, random: nat -> real)
    requires |data| > 0 && data[|data| - 1] == '\n'
    requires |Headers(data)| >= 2
    requires maxEntries >= |Text.Split(data, '\n')| - 1
    ensures Load(Some(data), maxEntries, random) == []
  {
    TrailingNewlineFails(data, maxEntries, random);
  }

  /**
    The constructor: load, then create the buffers. A `TypeError` while
    colouring rejects the promise, so no buffers are attached.
   */
  function Create(fetched: Option<string>, maxEntries: int, random: nat -> real): (s: Satellites)
    ensures s.records == Load(fetched, maxEntries, random)
    ensures s.geometry.Some? <==> forall k :: 0 <= k < |s.records| ==> UsersOf(s.records[k]).Some?
    ensures s.geometry.Some? ==> Ok(s.geometry.value) == CreateObjects(s.records)
  {
    var sats := Load(fetched, maxEntries, random);
    match CreateObjects(sats)
    case Ok(g) => Satellites(sats, Some(g))
    case Err(_) => Satellites(sats, None)
  }

  /** `sat[key]` in an arithmetic expression: a missing key or text is NaN. */
  function Field(rec: Record, key: string): (n: Num)
    ensures n.Val? <==> key in rec && rec[key].Number?
    ensures n.Val? ==> rec[key] == Number(n.v)
  {
    if key in rec && rec[key].Number? then Val(rec[key].n) else NaN
  }

  /** Replaces each NaN coordinate by zero and keeps the finite ones. */
  function Sanitize(p: Vec3): (t: Triple)
    ensures p.x.Val? ==> t.x == p.x.v
    ensures p.y.Val? ==> t.y == p.y.v
    ensures p.z.Val? ==> t.z == p.z.v
    ensures p.x.NaN? ==> t.x == 0.0
    ensures p.y.NaN? ==> t.y == 0.0
    ensures p.z.NaN? ==> t.z == 0.0
  {
    Triple(if p.x.Val? then p.x.v else 0.0, if p.y.Val? then p.y.v else 0.0,
           if p.z.Val? then p.z.v else 0.0)
  }

  /** Where one satellite is: the orbit of its columns, with the period negated. */
  function Position(lib: MathLib, scale: real, rec: Record, time: Num, origin: Vec3): Vec3 {
    Kepler.Orbit(lib, scale, origin, Field(rec, "Perigee"), Field(rec, "Apogee"),
                 Field(rec, "Eccentricity"), Field(rec, "Inclination"), Neg(Field(rec, "Period")),
                 time, Field(rec, INIT_PHASE))
  }

  /** The array `updateSatellites` builds: one sanitised triple per satellite, in order. */
  function Positions(lib: MathLib, scale: real, sats: seq<Record>, time: Num, origin: Vec3): (r: seq<real>)
    ensures |r| == 3 * |sats|
    ensures forall k :: 0 <= k < |sats| ==>
              var t := Sanitize(Position(lib, scale, sats[k], time, origin));
              r[3 * k] == t.x && r[3 * k + 1] == t.y && r[3 * k + 2] == t.z
  {
    Flat(seq(|sats|, k requires 0 <= k < |sats| => Sanitize(Position(lib, scale, sats[k], time, origin))))
  }

  /**
    `updateSatellites(time, origin)`: the new positions replace the shared
    position buffer, which exists only once the first satellite has its mesh.
   */
  function UpdateSatellites(s: Satellites, lib: MathLib, scale: real, time: Num, origin: Vec3): (s': Satellites)
    ensures s'.records == s.records
    ensures |s.records| == 0 || s.geometry.None? ==> s' == s
    ensures |s.records| > 0 && s.geometry.Some? ==>
              && s'.geometry.Some?
              && s'.geometry.value.colors == s.geometry.value.colors
              && s'.geometry.value.positions == Positions(lib, scale, s.records, time, origin)
  {
    if |s.records| > 0 && s.geometry.Some? then
      s.(geometry := Some(s.geometry.value.(positions := Positions(lib, scale, s.records, time, origin))))
    else s
  }

  /**
    A satellite whose period is zero, missing or not a number lands on the
    scene's origin (0, 0, 0), not on its host: every coordinate is NaN and
    becomes 0.
   */
  lemma NoPeriodAtSceneOrigin(lib: MathLib, scale: real, sats: seq<Record>, time: Num, origin: Vec3, k: nat)
    requires k < |sats|
    requires Field(sats[k], "Period") == Val(0.0) || Field(sats[k], "Period") == NaN
    ensures var r := Positions(lib, scale, sats, time, origin);
      r[3 * k] == 0.0 && r[3 * k + 1] == 0.0 && r[3 * k + 2] == 0.0
  {
    var rec := sats[k];
    assert Neg(Field(rec, "Period")) == Val(0.0) || Neg(Field(rec, "Period")) == NaN;
    Kepler.ZeroPeriodIsNaN(lib, scale, origin, Field(rec, "Perigee"), Field(rec, "Apogee"),
                           Field(rec, "Eccentricity"), Field(rec, "Inclination"), time, Field(rec, INIT_PHASE));
    assert Position(lib, scale, rec, time, origin) == Vec3(NaN, NaN, NaN);
  }
}

=== FILE: decimal.dfy ===
/** Decimal digits: `toString`, `padStart` and the numeric coercion `Number(s)`. */
module Decimal {
  import opened Results
  import Text

  predicate IsDigit(c: char) {
    '0' <= c <= '9'
  }

  predicate AllDigits(s: string) {
    forall k :: 0 <= k < |s| ==> IsDigit(s[k])
  }

  function DigitValue(c: char): nat
    requires IsDigit(c)
  {
    c as int - '0' as int
  }

  function DigitChar(d: nat): (c: char)
    requires d < 10
    ensures IsDigit(c) && DigitValue(c) == d
  {
    ('0' as int + d) as char
  }

  /** The number a string of decimal digits denotes (the empty string denotes 0). */
  function DigitsValue(s: string): nat
    requires AllDigits(s)
    decreases |s|
  {
    if |s| == 0 then 0 else 10 * DigitsValue(s[..|s| - 1]) + DigitValue(s[|s| - 1])
  }

  function Pow10(n: nat): (r: nat)
    ensures r >= 1
  {
    if n == 0 then 1 else 10 * Pow10(n - 1)
  }

  /** `n.toString()` for a non-negative integer: digits without leading zeros. */
  function NatToDecimal(n: nat): (r: string)
    ensures |r| >= 1 && AllDigits(r)
    ensures DigitsValue(r) == n
    ensures |r| > 1 ==> r[0] != '0'
    ensures n < 10 <==> |r| == 1
    ensures n < 100 <==> |r| <= 2
    decreases n
  {
    if n < 10 then [DigitChar(n)]
    else
      var r := NatToDecimal(n / 10) + [DigitChar(n % 10)];
      assert r[..|r| - 1] == NatToDecimal(n / 10);
      r
  }

  /** `i.toString()` for any integer. */
  function IntToString(i: int): (r: string)
    ensures |r| >= 1
    ensures i < 0 ==> r[0] == '-' && r[1..] == NatToDecimal(-i)
    ensures i >= 0 ==> r == NatToDecimal(i)
  {
    if i < 0 then "-" + NatToDecimal(-i) else NatToDecimal(i)
  }

  /** `s.padStart(width, fill)` for a one-character fill. */
  function PadStart(s: string, width: nat, fill: char): (r: string)
    ensures |r| == if |s| < width then width else |s|
    ensures r[|r| - |s|..] == s
    ensures forall k :: 0 <= k < |r| - |s| ==> r[k] == fill
  {
    if |s| < width then seq(width - |s|, _ => fill) + s else s
  }

  lemma {:induction false} LeadingZeroValue(s: string)
    requires AllDigits(s)
    ensures AllDigits("0" + s) && DigitsValue("0" + s) == DigitsValue(s)
    decreases |s|
  {
    if |s| > 0 {
      var t := "0" + s;
      assert t[..|t| - 1] == "0" + s[..|s| - 1];
      LeadingZeroValue(s[..|s| - 1]);
    }
  }

  /** Padding with zeros keeps the value a digit string denotes. */
  lemma {:induction false} ZeroPadValue(s: string, width: nat)
    requires AllDigits(s)
    ensures AllDigits(PadStart(s, width, '0'))
    ensures DigitsValue(PadStart(s, width, '0')) == DigitsValue(s)
    decreases width
  {
    if |s| < width {
      ZeroPadValue(s, width - 1);
      LeadingZeroValue(PadStart(s, width - 1, '0'));
      PadOneMore(s, width);
    }
  }

  lemma PadOneMore(s: string, width: nat)
    requires |s| < width
    ensures PadStart(s, width, '0') == "0" + PadStart(s, width - 1, '0')
  {
    var zeros: string := seq(width - |s|, _ => '0');
    var fewer: string := seq(width - 1 - |s|, _ => '0');
    assert zeros == "0" + fewer;
  }

  /**
    `Number(s)` for a trimmed string, restricted to plain decimal literals:
    an optional sign, digits, an optional fraction. The empty string is 0.
    `None` stands for NaN.
   */
  function ParseNumber(s: string): (r: Option<real>)
    ensures s == "" ==> r == Some(0.0)
    ensures r.Some? ==> forall k :: 0 <= k < |s| ==> IsDigit(s[k]) || s[k] in "+-."
  {
    if s == "" then Some(0.0)
    else if s[0] == '-' then
      match ParseUnsigned(s[1..])
      case Some(x) => Some(-x)
      case None => None
    else if s[0] == '+' then ParseUnsigned(s[1..])
    else ParseUnsigned(s)
  }

  /** Digits with at most one '.', and at least one digit. */
  function ParseUnsigned(s: string): (r: Option<real>)
    ensures r.Some? ==> forall k :: 0 <= k < |s| ==> IsDigit(s[k]) || s[k] == '.'
    ensures r.Some? ==> r.value >= 0.0
  {
    var parts := Text.Split(s, '.');
    Text.JoinSplit(s, '.');
    if |parts| == 1 && |s| >= 1 && AllDigits(s) then
      Some(DigitsValue(s) as real)
    else if |parts| == 2 && |parts[0]| + |parts[1]| >= 1
            && AllDigits(parts[0]) && AllDigits(parts[1]) then
      assert parts[1..] == [parts[1]];
      assert Text.Join(parts[1..], '.') == parts[1];
      assert Text.Join(parts, '.') == parts[0] + ['.'] + Text.Join(parts[1..], '.');
      assert s == parts[0] + "." + parts[1];
      Some(DigitsValue(parts[0]) as real + DigitsValue(parts[1]) as real / Pow10(|parts[1]|) as real)
    else None
  }

  /** What `toString` prints, `Number` reads back. */
  lemma ParseIntToString(i: int)
    ensures ParseNumber(IntToString(i)) == Some(i as real)
  {
    var d := NatToDecimal(if i < 0 then -i else i);
    ParseDigits(d);
    if i < 0 {
      assert IntToString(i)[1..] == d;
    } else {
      assert IntToString(i)[0] != '-' && IntToString(i)[0] != '+';
    }
  }

  /** A non-empty digit string reads as the number it denotes. */
  lemma ParseDigits(d: string)
    requires |d| >= 1 && AllDigits(d)
    ensures ParseUnsigned(d) == Some(DigitsValue(d) as real)
  {
    assert '.' !in d by {
      forall k | 0 <= k < |d| ensures d[k] != '.' { assert IsDigit(d[k]); }
    }
    Text.SplitNoSeparator(d, '.');
  }
  /** The value of the literal `a.b`: the whole digits plus the fraction digits over a power of ten. */
  function FractionValue(a: string, b: string): real
    requires AllDigits(a) && AllDigits(b)
  {
    DigitsValue(a) as real + DigitsValue(b) as real / Pow10(|b|) as real
  }

  /**
    A fractional literal, with or without leading digits and with or without
    a minus sign, reads as the number it denotes.
   */
  lemma ParseFraction(a: string, b: string)
    requires AllDigits(a) && AllDigits(b) && |b| >= 1
    ensures ParseNumber(a + "." + b) == Some(FractionValue(a, b))
    ensures ParseNumber("-" + a + "." + b) == Some(-FractionValue(a, b))
  {
    var s := a + "." + b;
    assert '.' !in a by {
      forall k | 0 <= k < |a| ensures a[k] != '.' { assert IsDigit(a[k]); }
    }
    assert '.' !in b by {
      forall k | 0 <= k < |b| ensures b[k] != '.' { assert IsDigit(b[k]); }
    }
    assert Text.Join([a, b], '.') == s;
    Text.SplitJoin([a, b], '.');
    assert ParseUnsigned(s) == Some(FractionValue(a, b));
    assert s[0] != '-' && s[0] != '+' by {
      if |a| > 0 { assert IsDigit(a[0]); }
    }
    assert ("-" + a + "." + b)[1..] == s;
  }

  /** A sample eccentricity reads as its value. */
  lemma EccentricityExample()
    ensures ParseNumber("0.0012") == Some(0.0012)
  {
    assert FractionValue("0", "0012") == 0.0012 by {
      assert "0012"[..3] == "001" && "001"[..2] == "00" && "00"[..1] == "0" && "0"[..0] == "";
      assert DigitsValue("00") == 0 && DigitsValue("001") == 1;
      assert DigitsValue("0012") == 12 && Pow10(4) == 10000;
    }
    ParseFraction("0", "0012");
    assert "0" + "." + "0012" == "0.0012";
  }

  /** A sample negative inclination reads as its value. */
  lemma InclinationExample()
    ensures ParseNumber("-51.6") == Some(-51.6)
  {
    assert FractionValue("51", "6") == 51.6 by {
      assert "51"[..1] == "5" && "5"[..0] == "" && "6"[..0] == "";
      assert DigitsValue("5") == 5 && DigitsValue("6") == 6;
      assert DigitsValue("51") == 51 && Pow10(1) == 10;
    }
    ParseFraction("51", "6");
    assert "-" + "51" + "." + "6" == "-51.6";
  }
}

=== FILE: kepler.dfy ===
/**
  The satellite orbit function: a bounded Newton solve of Kepler's equation,
  the true anomaly and radius it gives, the point in the inclined orbital
  plane, and the scaled translation to the host body.
 */
module Kepler {
  import opened Numbers

  /** The loop bound of the Newton iteration. */
  const NEWTON_STEPS: nat := 10

  /** The convergence threshold on the residual, `1e-6`. */
  const TOLERANCE: real := 0.000001

  /** The multiplier the result applies after the configured scale factor. */
  const SCENE_FACTOR: real := 25.0

  /** `(perigee + apogee) / 2`: twice the semi-major axis is perigee plus apogee. */
  function SemiMajorAxis(perigee: Num, apogee: Num): (a: Num)
    ensures a.Val? <==> perigee.Val? && apogee.Val?
    ensures a.Val? ==> 2.0 * a.v == perigee.v + apogee.v
  {
    Div(Add(perigee, apogee), Val(2.0))
  }

  /**
    `n * time + initialPhase` with the mean motion `n = 2 * PI / period`.
    A zero period makes the mean motion infinite, and the anomaly with it.
   */
  function MeanAnomaly(period: Num, time: Num, phase: Num): (m: Num)
    ensures m.Val? <==> period.Val? && period.v != 0.0 && time.Val? && phase.Val?
    ensures m.Val? ==> (m.v - phase.v) * period.v == TWO_PI * time.v
  {
    MeanMotionScales(period, time);
    Add(Mul(Div(Val(TWO_PI), period), time), phase)
  }

  /** The mean motion times the period is a full turn, so `n * time` scales back to `2 * PI * time`. */
  lemma MeanMotionScales(period: Num, time: Num)
    ensures var n := Div(Val(TWO_PI), period);
      n.Val? && time.Val? ==> (n.v * time.v) * period.v == TWO_PI * time.v
  {
    var n := Div(Val(TWO_PI), period);
    if n.Val? && time.Val? {
      assert n.v * period.v == TWO_PI;
      assert (n.v * time.v) * period.v == (n.v * period.v) * time.v;
    }
  }

  /** The residual of Kepler's equation, `E - e * sin(E) - M`. */
  function Residual(lib: MathLib, e: Num, m: Num, ecc: Num): Num {
    Sub(Sub(ecc, Mul(e, Sin(lib, ecc))), m)
  }

  /** The loop's exit test: a finite residual below the tolerance. */
  predicate Small(d: Num) {
    d.Val? && Abs(d.v) < TOLERANCE
  }

  /** One Newton update, `E -= delta / (1 - e * cos(E))`. */
  function NewtonStep(lib: MathLib, e: Num, m: Num, ecc: Num): Num {
    Sub(ecc, Div(Residual(lib, e, m, ecc), Sub(Val(1.0), Mul(e, Cos(lib, ecc)))))
  }

  /** `k` Newton updates from `ecc`, with no exit test: the reference sequence of iterates. */
  function Iterate(lib: MathLib, e: Num, m: Num, ecc: Num, k: nat): Num
    decreases k
  {
    if k == 0 then ecc else Iterate(lib, e, m, NewtonStep(lib, e, m, ecc), k - 1)
  }

  /** The outcome of the loop: the final anomaly, how many updates ran, and whether it exited early. */
  datatype Solve = Solve(anomaly: Num, updates: nat, converged: bool)

  /**
    The Newton loop from `ecc` with `budget` passes left: each pass first
    tests the residual, leaves the loop when it is small and otherwise updates.
   */
  function Newton(lib: MathLib, e: Num, m: Num, ecc: Num, budget: nat): (r: Solve)
    ensures r.updates <= budget
    ensures r.converged ==> Small(Residual(lib, e, m, r.anomaly))
    ensures !r.converged ==> r.updates == budget
    ensures ecc == NaN ==> r == Solve(NaN, budget, false)
    decreases budget
  {
    if budget == 0 then Solve(ecc, 0, false)
    else if Small(Residual(lib, e, m, ecc)) then Solve(ecc, 0, true)
    else
      var s := Newton(lib, e, m, NewtonStep(lib, e, m, ecc), budget - 1);
      s.(updates := s.updates + 1)
  }

  /**
    The loop leaves at the first small residual and not before: its result is
    the iterate after `updates` steps, and every earlier iterate failed the test.
   */
  lemma {:induction false} NewtonFollowsIterates(lib: MathLib, e: Num, m: Num, ecc: Num, budget: nat)
    ensures var r := Newton(lib, e, m, ecc, budget);
      && r.anomaly == Iterate(lib, e, m, ecc, r.updates)
      && (forall j :: 0 <= j < r.updates ==> !Small(Residual(lib, e, m, Iterate(lib, e, m, ecc, j))))
    decreases budget
  {
    if budget == 0 || Small(Residual(lib, e, m, ecc)) {
    } else {
      var next := NewtonStep(lib, e, m, ecc);
      NewtonFollowsIterates(lib, e, m, next, budget - 1);
      var s := Newton(lib, e, m, next, budget - 1);
      forall j | 0 <= j < s.updates + 1
        ensures !Small(Residual(lib, e, m, Iterate(lib, e, m, ecc, j)))
      {
        if j > 0 {
          assert Iterate(lib, e, m, ecc, j) == Iterate(lib, e, m, next, j - 1);
        }
      }
    }
  }

  /** The solve the orbit function runs: from `E = M`, at most ten passes. */
  function EccentricAnomaly(lib: MathLib, e: Num, m: Num): (r: Solve)
    ensures r.updates <= NEWTON_STEPS
    ensures r.converged ==> Small(Residual(lib, e, m, r.anomaly))
    ensures !r.converged ==> r.updates == NEWTON_STEPS
    ensures r.anomaly == Iterate(lib, e, m, m, r.updates)
    ensures forall j :: 0 <= j < r.updates ==> !Small(Residual(lib, e, m, Iterate(lib, e, m, m, j)))
    ensures m == NaN ==> r.anomaly == NaN && !r.converged
  {
    NewtonFollowsIterates(lib, e, m, m, NEWTON_STEPS);
    Newton(lib, e, m, m, NEWTON_STEPS)
  }

  /** For a circular orbit the first residual is zero: `E = M` with no update. */
  lemma CircularNeedsNoUpdate(lib: MathLib, m: real)
    ensures EccentricAnomaly(lib, Val(0.0), Val(m)) == Solve(Val(m), 0, true)
  {
    assert Residual(lib, Val(0.0), Val(m), Val(m)) == Val(0.0);
  }

  /**
    `2 * atan(sqrt((1 + e) / (1 - e)) * tan(E / 2))`. For `e == 1` the square
    root is of an infinite quotient and `atan` of an infinite argument is
    `PI / 2`, so the anomaly is `PI` or `-PI` by the sign of the tangent, and
    NaN when the tangent is zero. For `|e| > 1` the square root is NaN.
   */
  function TrueAnomaly(lib: MathLib, e: Num, ecc: Num): (v: Num)
    ensures v.Val? ==> e.Val? && ecc.Val? && -1.0 <= e.v <= 1.0
    ensures e.Val? && ecc.Val? && -1.0 <= e.v < 1.0 ==> v.Val?
    ensures e == Val(1.0) ==> v in {Val(PI), Val(-PI), NaN}
  {
    if !ecc.Val? then NaN else AnomalyFromTangent(lib, e, lib.tan(ecc.v / 2.0))
  }

  /** The true anomaly given `tan(E / 2)`. */
  function AnomalyFromTangent(lib: MathLib, e: Num, t: real): (v: Num)
    ensures v.Val? ==> e.Val? && -1.0 <= e.v <= 1.0
    ensures e.Val? && -1.0 <= e.v < 1.0 ==> v.Val?
    ensures e == Val(1.0) ==> v in {Val(PI), Val(-PI), NaN}
  {
    if !e.Val? then NaN
    else if e.v == 1.0 then
      (if t > 0.0 then Val(PI) else if t < 0.0 then Val(-PI) else NaN)
    else
      var q := (1.0 + e.v) / (1.0 - e.v);
      if q < 0.0 then NaN else Val(2.0 * lib.atan(lib.sqrt(q) * t))
  }

  /** `a * (1 - e * cos(E))`: the distance from the focus. */
  function Radius(lib: MathLib, a: Num, e: Num, ecc: Num): (r: Num)
    ensures r.Val? <==> a.Val? && e.Val? && ecc.Val?
    ensures e == Val(0.0) && ecc.Val? ==> r == a
  {
    Mul(a, Sub(Val(1.0), Mul(e, Cos(lib, ecc))))
  }

  /**
    The point at distance `r` and angle `v` in the orbital plane, tilted about
    the X axis by `inc`: `(r cos v, r sin v cos inc, r sin v sin inc)`.
   */
  function PlanePoint(lib: MathLib, r: Num, v: Num, inc: Num): (p: Vec3)
    ensures Finite(p) <==> r.Val? && v.Val? && inc.Val?
    ensures Finite(p) ==> p.y.v * lib.sin(inc.v) == p.z.v * lib.cos(inc.v)
  {
    var rs := Mul(r, Sin(lib, v));
    PlaneIdentity(rs, Cos(lib, inc), Sin(lib, inc));
    Vec3(Mul(r, Cos(lib, v)), Mul(rs, Cos(lib, inc)), Mul(rs, Sin(lib, inc)))
  }

  lemma PlaneIdentity(a: Num, c: Num, s: Num)
    ensures Mul(Mul(a, c), s) == Mul(Mul(a, s), c)
  {
  }

  /** With sin^2 + cos^2 = 1, the point lies at distance |r| from the focus. */
  lemma {:induction false} PlanePointDistance(lib: MathLib, r: real, v: real, inc: real)
    requires Pythagorean(lib)
    ensures var p := PlanePoint(lib, Val(r), Val(v), Val(inc));
      p.x.v * p.x.v + p.y.v * p.y.v + p.z.v * p.z.v == r * r
  {
    var p := PlanePoint(lib, Val(r), Val(v), Val(inc));
    var cv, sv, ci, si := lib.cos(v), lib.sin(v), lib.cos(inc), lib.sin(inc);
    var rs := r * sv;
    assert p.x.v == r * cv && p.y.v == rs * ci && p.z.v == rs * si;
    assert sv * sv + cv * cv == 1.0;
    assert si * si + ci * ci == 1.0;
    SumOfSquares(rs, ci, si);
    assert p.y.v * p.y.v + p.z.v * p.z.v == rs * rs;
    SumOfSquares(r, cv, sv);
    assert p.x.v * p.x.v + rs * rs == r * r;
  }

  lemma SumOfSquares(a: real, c: real, s: real)
    requires s * s + c * c == 1.0
    ensures (a * c) * (a * c) + (a * s) * (a * s) == a * a
  {
    assert (a * c) * (a * c) + (a * s) * (a * s) == a * a * (c * c + s * s);
  }

  /** Scales the local point by the real-world scale factor times 25 and adds the origin, componentwise. */
  function Place(local: Vec3, scale: real, origin: Vec3): (p: Vec3)
    ensures Finite(p) <==> Finite(local) && Finite(origin)
    ensures Finite(p) ==>
      && p.x.v == origin.x.v + scale * SCENE_FACTOR * local.x.v
      && p.y.v == origin.y.v + scale * SCENE_FACTOR * local.y.v
      && p.z.v == origin.z.v + scale * SCENE_FACTOR * local.z.v
  {
    var k := Val(scale);
    Vec3(Add(Mul(Mul(local.x, k), Val(SCENE_FACTOR)), origin.x),
         Add(Mul(Mul(local.y, k), Val(SCENE_FACTOR)), origin.y),
         Add(Mul(Mul(local.z, k), Val(SCENE_FACTOR)), origin.z))
  }

  /** The point in the orbital plane, before scaling and translation. */
  function LocalPosition(lib: MathLib, perigee: Num, apogee: Num, e: Num, inclination: Num,
                         period: Num, time: Num, phase: Num): Vec3 {
    var inc := DegToRad(inclination);
    var a := SemiMajorAxis(perigee, apogee);
    var m := MeanAnomaly(period, time, phase);
    var ecc := EccentricAnomaly(lib, e, m).anomaly;
    PlanePoint(lib, Radius(lib, a, e, ecc), TrueAnomaly(lib, e, ecc), inc)
  }

  /**
    `orbit(origin, perigee, apogee, eccentricity, inclination, period, time,
    initialPhase)`, with `scale` the configured real-world scale factor. Each
    coordinate is the origin's plus the local one scaled by `scale * 25`.
   */
  function Orbit(lib: MathLib, scale: real, origin: Vec3, perigee: Num, apogee: Num, e: Num,
                 inclination: Num, period: Num, time: Num, phase: Num): (p: Vec3)
    ensures Finite(p) ==> Finite(origin)
    ensures Finite(p) ==> InPlane(lib, p, origin, DegToRad(inclination))
  {
    var a := SemiMajorAxis(perigee, apogee);
    var ecc := EccentricAnomaly(lib, e, MeanAnomaly(period, time, phase)).anomaly;
    PlanePlaced(lib, scale, origin, Radius(lib, a, e, ecc), TrueAnomaly(lib, e, ecc), DegToRad(inclination));
    Place(LocalPosition(lib, perigee, apogee, e, inclination, period, time, phase), scale, origin)
  }

  /** A zero period gives an infinite mean motion, and every coordinate is NaN. */
  lemma ZeroPeriodIsNaN(lib: MathLib, scale: real, origin: Vec3, perigee: Num, apogee: Num, e: Num,
                        inclination: Num, time: Num, phase: Num)
    ensures Orbit(lib, scale, origin, perigee, apogee, e, inclination, Val(0.0), time, phase)
            == Vec3(NaN, NaN, NaN)
  {
  }

  /** `p` lies in the plane through `origin` that contains the x direction and is tilted by `inc`. */
  predicate InPlane(lib: MathLib, p: Vec3, origin: Vec3, inc: Num) {
    && Finite(p) && Finite(origin) && inc.Val?
    && (p.y.v - origin.y.v) * lib.sin(inc.v) == (p.z.v - origin.z.v) * lib.cos(inc.v)
  }

  /**
    With a finite origin the point is finite exactly when the local point is,
    and then each coordinate lies `scale * 25` times the local one away from
    the origin's.
   */
  lemma OrbitOffset(lib: MathLib, scale: real, origin: Vec3, perigee: Num, apogee: Num, e: Num,
                    inclination: Num, period: Num, time: Num, phase: Num)
    requires Finite(origin)
    ensures var p := Orbit(lib, scale, origin, perigee, apogee, e, inclination, period, time, phase);
      var q := LocalPosition(lib, perigee, apogee, e, inclination, period, time, phase);
      && (Finite(p) <==> Finite(q))
      && (Finite(p) ==>
            && p.x.v - origin.x.v == scale * SCENE_FACTOR * q.x.v
            && p.y.v - origin.y.v == scale * SCENE_FACTOR * q.y.v
            && p.z.v - origin.z.v == scale * SCENE_FACTOR * q.z.v)
  {
  }

  lemma PlanePlaced(lib: MathLib, scale: real, origin: Vec3, r: Num, v: Num, inc: Num)
    ensures var p := Place(PlanePoint(lib, r, v, inc), scale, origin);
      Finite(p) ==> InPlane(lib, p, origin, inc)
  {
    var q := PlanePoint(lib, r, v, inc);
    if Finite(q) && Finite(origin) {
      PlacedPlane(q, scale, origin, lib.sin(inc.v), lib.cos(inc.v));
    }
  }

  lemma PlacedPlane(q: Vec3, scale: real, origin: Vec3, s: real, k: real)
    requires Finite(q) && Finite(origin)
    requires q.y.v * s == q.z.v * k
    ensures var p := Place(q, scale, origin);
      (p.y.v - origin.y.v) * s == (p.z.v - origin.z.v) * k
  {
    var c := scale * SCENE_FACTOR;
    var p := Place(q, scale, origin);
    assert p.y.v - origin.y.v == c * q.y.v;
    assert p.z.v - origin.z.v == c * q.z.v;
    assert (c * q.y.v) * s == c * (q.y.v * s);
    assert (c * q.z.v) * k == c * (q.z.v * k);
  }

  /** The orbit is rigid under a move of the host: moving the origin moves the point by as much. */
  lemma OrbitTranslation(lib: MathLib, scale: real, origin: Vec3, shift: Vec3, perigee: Num,
                         apogee: Num, e: Num, inclination: Num, period: Num, time: Num, phase: Num)
    requires Finite(shift)
    ensures Orbit(lib, scale, VAdd(origin, shift), perigee, apogee, e, inclination, period, time, phase)
            == VAdd(Orbit(lib, scale, origin, perigee, apogee, e, inclination, period, time, phase), shift)
  {
    PlaceTranslation(LocalPosition(lib, perigee, apogee, e, inclination, period, time, phase),
                     scale, origin, shift);
  }

  lemma PlaceTranslation(q: Vec3, scale: real, origin: Vec3, shift: Vec3)
    requires Finite(shift)
    ensures Place(q, scale, VAdd(origin, shift)) == VAdd(Place(q, scale, origin), shift)
  {
  }

  /**
    A circular orbit stays at distance `scale * 25 * a` from its host, where
    `a` is the mean of perigee and apogee.
   */
  lemma {:induction false} CircularOrbitRadius(lib: MathLib, scale: real, origin: Vec3, perigee: real,
                                               apogee: real, inclination: real, period: real,
                                               time: real, phase: real)
    requires Pythagorean(lib)
    requires period != 0.0
    requires Finite(origin)
    ensures var p := Orbit(lib, scale, origin, Val(perigee), Val(apogee), Val(0.0), Val(inclination),
                           Val(period), Val(time), Val(phase));
      var k := scale * SCENE_FACTOR * (perigee + apogee) / 2.0;
      && Finite(p)
      && (p.x.v - origin.x.v) * (p.x.v - origin.x.v) + (p.y.v - origin.y.v) * (p.y.v - origin.y.v)
         + (p.z.v - origin.z.v) * (p.z.v - origin.z.v) == k * k
  {
    var a := (perigee + apogee) / 2.0;
    var q := LocalPosition(lib, Val(perigee), Val(apogee), Val(0.0), Val(inclination), Val(period),
                           Val(time), Val(phase));
    CircularLocalDistance(lib, perigee, apogee, inclination, period, time, phase);
    PlacedDistance(q, scale, origin, a);
    assert Orbit(lib, scale, origin, Val(perigee), Val(apogee), Val(0.0), Val(inclination),
                 Val(period), Val(time), Val(phase)) == Place(q, scale, origin);
    Halving(scale * SCENE_FACTOR, perigee + apogee);
  }

  /** Before placement, the circular orbit's point lies at distance `a` from the plane's centre. */
  lemma CircularLocalDistance(lib: MathLib, perigee: real, apogee: real, inclination: real,
                              period: real, time: real, phase: real)
    requires Pythagorean(lib)
    requires period != 0.0
    ensures var q := LocalPosition(lib, Val(perigee), Val(apogee), Val(0.0), Val(inclination),
                                   Val(period), Val(time), Val(phase));
      var a := (perigee + apogee) / 2.0;
      Finite(q) && q.x.v * q.x.v + q.y.v * q.y.v + q.z.v * q.z.v == a * a
  {
    var m := MeanAnomaly(Val(period), Val(time), Val(phase));
    CircularNeedsNoUpdate(lib, m.v);
    var a := (perigee + apogee) / 2.0;
    var v := TrueAnomaly(lib, Val(0.0), m);
    var inc := DegToRad(Val(inclination));
    assert LocalPosition(lib, Val(perigee), Val(apogee), Val(0.0), Val(inclination), Val(period),
                         Val(time), Val(phase)) == PlanePoint(lib, Val(a), v, inc);
    PlanePointDistance(lib, a, v.v, inc.v);
  }

  /** Placing a point at distance `a` from the plane's centre puts it `scale * 25 * a` from the origin. */
  lemma PlacedDistance(q: Vec3, scale: real, origin: Vec3, a: real)
    requires Finite(q) && Finite(origin)
    requires q.x.v * q.x.v + q.y.v * q.y.v + q.z.v * q.z.v == a * a
    ensures var p := Place(q, scale, origin);
      var k := scale * SCENE_FACTOR * a;
      && Finite(p)
      && (p.x.v - origin.x.v) * (p.x.v - origin.x.v) + (p.y.v - origin.y.v) * (p.y.v - origin.y.v)
         + (p.z.v - origin.z.v) * (p.z.v - origin.z.v) == k * k
  {
    var p := Place(q, scale, origin);
    var c := scale * SCENE_FACTOR;
    assert p.x.v - origin.x.v == c * q.x.v;
    assert p.y.v - origin.y.v == c * q.y.v;
    assert p.z.v - origin.z.v == c * q.z.v;
    ScaledDistance(c, q.x.v, q.y.v, q.z.v, a);
  }

  lemma Halving(c: real, s: real)
    ensures c * s / 2.0 == c * (s / 2.0)
  {
  }

  lemma ScaledDistance(c: real, x: real, y: real, z: real, a: real)
    requires x * x + y * y + z * z == a * a
    ensures (c * x) * (c * x) + (c * y) * (c * y) + (c * z) * (c * z) == (c * a) * (c * a)
  {
    assert (c * x) * (c * x) + (c * y) * (c * y) + (c * z) * (c * z) == c * c * (x * x + y * y + z * z);
  }

  // ------------------------------------------------------ periodicity

  /** Every Newton update commutes with a shift of both anomalies by 2 pi. */
  lemma StepShifts(lib: MathLib, e: Num, m: real, ecc: real)
    requires Periodic(lib)
    ensures Residual(lib, e, Val(m + TWO_PI), Val(ecc + TWO_PI)) == Residual(lib, e, Val(m), Val(ecc))
    ensures NewtonStep(lib, e, Val(m + TWO_PI), Val(ecc + TWO_PI))
            == Add(NewtonStep(lib, e, Val(m), Val(ecc)), Val(TWO_PI))
  {
    assert lib.sin(ecc + TWO_PI) == lib.sin(ecc);
    assert lib.cos(ecc + TWO_PI) == lib.cos(ecc);
  }

  /** The whole loop commutes with the shift: same passes, same exit, anomaly moved by 2 pi. */
  lemma {:induction false} NewtonShifts(lib: MathLib, e: Num, m: real, ecc: Num, budget: nat)
    requires Periodic(lib)
    ensures var r := Newton(lib, e, Val(m), ecc, budget);
      Newton(lib, e, Val(m + TWO_PI), Add(ecc, Val(TWO_PI)), budget)
      == r.(anomaly := Add(r.anomaly, Val(TWO_PI)))
    decreases budget
  {
    if budget > 0 && ecc.Val? {
      StepShifts(lib, e, m, ecc.v);
      if !Small(Residual(lib, e, Val(m), ecc)) {
        NewtonShifts(lib, e, m, NewtonStep(lib, e, Val(m), ecc), budget - 1);
      }
    }
  }

  /** One more period adds exactly 2 pi to the mean anomaly. */
  lemma MeanAnomalyShifts(period: real, time: real, phase: Num)
    requires period != 0.0
    ensures MeanAnomaly(Val(period), Val(time + period), phase)
            == Add(MeanAnomaly(Val(period), Val(time), phase), Val(TWO_PI))
  {
    var n := TWO_PI / period;
    assert n * period == TWO_PI;
    assert n * (time + period) == n * time + n * period;
  }

  /** The true anomaly and the radius depend on the eccentric anomaly only modulo 2 pi. */
  lemma AnomalyStagesShift(lib: MathLib, a: Num, e: Num, ecc: real)
    requires Periodic(lib)
    ensures TrueAnomaly(lib, e, Val(ecc + TWO_PI)) == TrueAnomaly(lib, e, Val(ecc))
    ensures Radius(lib, a, e, Val(ecc + TWO_PI)) == Radius(lib, a, e, Val(ecc))
  {
    var h := ecc / 2.0;
    var h' := (ecc + TWO_PI) / 2.0;
    assert h' == h + PI;
    assert lib.tan(h') == lib.tan(h);
    assert Val(ecc + TWO_PI).v / 2.0 == h';
    assert lib.cos(ecc + TWO_PI) == lib.cos(ecc);
  }

  /** The eccentric anomaly after one more period is the same angle plus 2 pi. */
  lemma EccentricAnomalyShifts(lib: MathLib, e: Num, period: real, time: real, phase: Num)
    requires Periodic(lib)
    requires period != 0.0
    ensures var m := MeanAnomaly(Val(period), Val(time), phase);
      var m' := MeanAnomaly(Val(period), Val(time + period), phase);
      EccentricAnomaly(lib, e, m').anomaly == Add(EccentricAnomaly(lib, e, m).anomaly, Val(TWO_PI))
  {
    MeanAnomalyShifts(period, time, phase);
    SolveShifts(lib, e, MeanAnomaly(Val(period), Val(time), phase));
  }

  /** Solving from a mean anomaly 2 pi further gives an eccentric anomaly 2 pi further. */
  lemma SolveShifts(lib: MathLib, e: Num, m: Num)
    requires Periodic(lib)
    ensures EccentricAnomaly(lib, e, Add(m, Val(TWO_PI))).anomaly == Add(EccentricAnomaly(lib, e, m).anomaly, Val(TWO_PI))
  {
    var shifted := Add(m, Val(TWO_PI));
    if m.Val? {
      assert m == Val(m.v) && shifted == Val(m.v + TWO_PI);
      NewtonShifts(lib, e, m.v, m, NEWTON_STEPS);
      assert EccentricAnomaly(lib, e, shifted) == Newton(lib, e, Val(m.v + TWO_PI), shifted, NEWTON_STEPS);
      assert EccentricAnomaly(lib, e, m) == Newton(lib, e, Val(m.v), m, NEWTON_STEPS);
    } else {
      assert shifted == NaN;
    }
  }

  /**
    With exact periodic trigonometry the position repeats after one period:
    the mean anomaly advances by 2 pi and every later stage absorbs the shift.
   */
  lemma OrbitPeriodic(lib: MathLib, scale: real, origin: Vec3, perigee: Num, apogee: Num, e: Num,
                      inclination: Num, period: real, time: real, phase: Num)
    requires Periodic(lib)
    requires period != 0.0
    ensures Orbit(lib, scale, origin, perigee, apogee, e, inclination, Val(period), Val(time + period), phase)
            == Orbit(lib, scale, origin, perigee, apogee, e, inclination, Val(period), Val(time), phase)
  {
    var m := MeanAnomaly(Val(period), Val(time), phase);
    var ecc := EccentricAnomaly(lib, e, m).anomaly;
    EccentricAnomalyShifts(lib, e, period, time, phase);
    if ecc.Val? {
      AnomalyStagesShift(lib, SemiMajorAxis(perigee, apogee), e, ecc.v);
    }
    assert LocalPosition(lib, perigee, apogee, e, inclination, Val(period), Val(time + period), phase)
           == LocalPosition(lib, perigee, apogee, e, inclination, Val(period), Val(time), phase);
  }
}

=== FILE: numbers.dfy ===
/**
  JavaScript numbers as far as the orbit code needs them.

  A number is either NaN or a finite value. JavaScript's infinities are folded
  into NaN: in every computation of this model a non-finite intermediate value
  ends up making the coordinates it feeds NaN, with the one exception handled
  explicitly in `Kepler.TrueAnomaly`.
 */
module Numbers {

  datatype Num = NaN | Val(v: real)

  /** The double closest to pi, as `Math.PI`. */
  const PI: real := 3.141592653589793
  const TWO_PI: real := 2.0 * PI

  function Add(a: Num, b: Num): Num {
    if a.Val? && b.Val? then Val(a.v + b.v) else NaN
  }

  function Sub(a: Num, b: Num): Num {
    if a.Val? && b.Val? then Val(a.v - b.v) else NaN
  }

  function Mul(a: Num, b: Num): Num {
    if a.Val? && b.Val? then Val(a.v * b.v) else NaN
  }

  /** Division; dividing by zero gives a non-finite value, folded into NaN. */
  function Div(a: Num, b: Num): Num {
    if a.Val? && b.Val? && b.v != 0.0 then Val(a.v / b.v) else NaN
  }

  function Neg(a: Num): Num {
    if a.Val? then Val(-a.v) else NaN
  }

  function Abs(x: real): real {
    if x < 0.0 then -x else x
  }

  /** `MathUtils.degToRad`: multiplication by pi/180. */
  function DegToRad(degrees: Num): Num {
    Mul(degrees, Val(PI / 180.0))
  }

  /**
    The transcendental functions of `Math`, left uninterpreted: the model
    proves structural facts that hold whatever these functions compute.
   */
  datatype MathLib = MathLib(
    sin: real -> real,
    cos: real -> real,
    tan: real -> real,
    atan: real -> real,
    sqrt: real -> real)

  function Sin(lib: MathLib, x: Num): Num {
    if x.Val? then Val(lib.sin(x.v)) else NaN
  }

  function Cos(lib: MathLib, x: Num): Num {
    if x.Val? then Val(lib.cos(x.v)) else NaN
  }

  /** sin and cos repeat after 2*pi, tan after pi (exact-real idealisation). */
  ghost predicate Periodic(lib: MathLib) {
    && (forall x, y {:trigger lib.sin(x), lib.sin(y)} :: y == x + TWO_PI ==> lib.sin(y) == lib.sin(x))
    && (forall x, y {:trigger lib.cos(x), lib.cos(y)} :: y == x + TWO_PI ==> lib.cos(y) == lib.cos(x))
    && (forall x, y {:trigger lib.tan(x), lib.tan(y)} :: y == x + PI ==> lib.tan(y) == lib.tan(x))
  }

  /** sin^2 + cos^2 = 1 (exact-real idealisation). */
  ghost predicate Pythagorean(lib: MathLib) {
    forall x :: lib.sin(x) * lib.sin(x) + lib.cos(x) * lib.cos(x) == 1.0
  }

  /** sqrt returns the non-negative root of a non-negative argument (exact-real idealisation). */
  ghost predicate SqrtExact(lib: MathLib) {
    forall x :: x >= 0.0 ==> (lib.sqrt(x) >= 0.0 && lib.sqrt(x) * lib.sqrt(x) == x && (x > 0.0 ==> lib.sqrt(x) > 0.0))
  }

  /** A three.js `Vector3` whose components may be NaN. */
  datatype Vec3 = Vec3(x: Num, y: Num, z: Num)

  predicate Finite(p: Vec3) {
    p.x.Val? && p.y.Val? && p.z.Val?
  }

  /** `Vector3.add`, componentwise. */
  function VAdd(a: Vec3, b: Vec3): Vec3 {
    Vec3(Add(a.x, b.x), Add(a.y, b.y), Add(a.z, b.z))
  }
}

=== FILE: results.dfy ===
/** Failure-carrying wrappers used across the model. */
module Results {

  /** An optional value: `None` stands for JavaScript's `undefined`/absent. */
  datatype Option<+T> = None | Some(value: T)

  /** The outcome of an operation that can throw: `Err` carries the reason. */
  datatype Result<+T, +E> = Ok(value: T) | Err(error: E)
}

=== FILE: text.dfy ===
/** String operations of JavaScript used by the parser and the formatter. */
module Text {

  /** `parts.join(sep)` for a one-character separator. */
  function Join(parts: seq<string>, sep: char): string
    decreases |parts|
  {
    if |parts| == 0 then ""
    else if |parts| == 1 then parts[0]
    else parts[0] + [sep] + Join(parts[1..], sep)
  }

  /**
    `s.split(sep)` for a one-character separator: the maximal separator-free
    pieces, including empty ones at either end.
   */
  function Split(s: string, sep: char): (r: seq<string>)
    ensures |r| >= 1
    ensures forall i :: 0 <= i < |r| ==> sep !in r[i]
    decreases |s|
  {
    if |s| == 0 then [""]
    else if s[0] == sep then [""] + Split(s[1..], sep)
    else
      var rest := Split(s[1..], sep);
      assert s == [s[0]] + s[1..];
      [[s[0]] + rest[0]] + rest[1..]
  }

  /** Joining the pieces with the separator gives back the string. */
  lemma {:induction false} JoinSplit(s: string, sep: char)
    ensures Join(Split(s, sep), sep) == s
    decreases |s|
  {
    if |s| > 0 {
      JoinSplit(s[1..], sep);
      var rest := Split(s[1..], sep);
      if s[0] == sep {
        assert Split(s, sep) == [""] + rest;
        assert s == [sep] + s[1..];
      } else {
        assert s == [s[0]] + s[1..];
        if |rest| > 1 {
          assert Join(rest, sep) == rest[0] + [sep] + Join(rest[1..], sep);
        }
      }
    }
  }

  lemma {:induction false} SplitPieceThenRest(p: string, rest: string, sep: char)
    requires sep !in p
    ensures Split(p + [sep] + rest, sep) == [p] + Split(rest, sep)
    decreases |p|
  {
    if |p| == 0 {
      assert p + [sep] + rest == [sep] + rest;
      assert ([sep] + rest)[1..] == rest;
    } else {
      var s := p + [sep] + rest;
      assert s[0] == p[0] && s[1..] == p[1..] + [sep] + rest;
      SplitPieceThenRest(p[1..], rest, sep);
      assert [p[0]] + p[1..] == p;
    }
  }

  lemma {:induction false} SplitNoSeparator(p: string, sep: char)
    requires sep !in p
    ensures Split(p, sep) == [p]
    decreases |p|
  {
    if |p| > 0 {
      SplitNoSeparator(p[1..], sep);
      assert [p[0]] + p[1..] == p;
    }
  }

  /** Splitting undoes joining, so `Split` and `Join` are inverse. */
  lemma {:induction false} SplitJoin(parts: seq<string>, sep: char)
    requires |parts| >= 1
    requires forall i :: 0 <= i < |parts| ==> sep !in parts[i]
    ensures Split(Join(parts, sep), sep) == parts
    decreases |parts|
  {
    if |parts| == 1 {
      SplitNoSeparator(parts[0], sep);
    } else {
      SplitJoin(parts[1..], sep);
      SplitPieceThenRest(parts[0], Join(parts[1..], sep), sep);
      assert [parts[0]] + parts[1..] == parts;
    }
  }

  /** The characters `String.prototype.trim` removes: WhiteSpace and LineTerminator. */
  predicate IsWhitespace(c: char) {
    || c == '\t' || c == '\n' || c == '\U{B}' || c == '\U{C}' || c == '\r'
    || c == ' ' || c == '\U{A0}' || c == '\U{1680}'
    || ('\U{2000}' <= c <= '\U{200A}')
    || c == '\U{2028}' || c == '\U{2029}' || c == '\U{202F}' || c == '\U{205F}'
    || c == '\U{3000}' || c == '\U{FEFF}'
  }

  function TrimStart(s: string): (r: string)
    ensures |r| <= |s| && r == s[|s| - |r|..]
    ensures forall k :: 0 <= k < |s| - |r| ==> IsWhitespace(s[k])
    ensures |r| > 0 ==> !IsWhitespace(r[0])
    decreases |s|
  {
    if |s| > 0 && IsWhitespace(s[0]) then TrimStart(s[1..]) else s
  }

  function TrimEnd(s: string): (r: string)
    ensures |r| <= |s| && r == s[..|r|]
    ensures forall k :: |r| <= k < |s| ==> IsWhitespace(s[k])
    ensures |r| > 0 ==> !IsWhitespace(r[|r| - 1])
    decreases |s|
  {
    if |s| > 0 && IsWhitespace(s[|s| - 1]) then TrimEnd(s[..|s| - 1]) else s
  }

  /** How many whitespace characters `s` starts with. */
  function LeadingWhitespace(s: string): nat {
    |s| - |TrimStart(s)|
  }

  /** `s.trim()`: `s` is some whitespace, then the result, then some whitespace. */
  function Trim(s: string): (r: string)
    ensures |r| > 0 ==> !IsWhitespace(r[0]) && !IsWhitespace(r[|r| - 1])
    ensures LeadingWhitespace(s) + |r| <= |s|
    ensures r == s[LeadingWhitespace(s)..LeadingWhitespace(s) + |r|]
    ensures forall k :: 0 <= k < LeadingWhitespace(s) ==> IsWhitespace(s[k])
    ensures forall k :: LeadingWhitespace(s) + |r| <= k < |s| ==> IsWhitespace(s[k])
  {
    var a := TrimStart(s);
    var r := TrimEnd(a);
    var i := |s| - |a|;
    assert forall k :: i + |r| <= k < |s| ==> s[k] == a[k - i];
    r
  }

  /** Trimming an already trimmed string changes nothing. */
  lemma TrimIdempotent(s: string)
    ensures Trim(Trim(s)) == Trim(s)
  {
    var r := Trim(s);
    if |r| > 0 {
      assert TrimStart(r) == r;
      assert TrimEnd(r) == r;
    }
  }

  /** Lower-cases the ASCII letters; every other character is kept. */
  function ToLowerAscii(s: string): (r: string)
    ensures |r| == |s|
    ensures forall k :: 0 <= k < |s| && 'A' <= s[k] <= 'Z' ==>
      r[k] as int == s[k] as int - 'A' as int + 'a' as int
    ensures forall k :: 0 <= k < |s| && !('A' <= s[k] <= 'Z') ==> r[k] == s[k]
    ensures forall k :: 0 <= k < |s| ==> !('A' <= r[k] <= 'Z')
  {
    seq(|s|, k requires 0 <= k < |s| =>
      if 'A' <= s[k] <= 'Z' then (s[k] as int + 32) as char else s[k])
  }

  /** `s.substring(0, n)`: the first `n` characters, or all of them. */
  function Prefix(s: string, n: nat): (r: string)
    ensures |r| == if |s| < n then |s| else n
    ensures r <= s
  {
    if |s| < n then s else s[..n]
  }
}
